=== FILE: README.md ===
# OpenAIAssistantBot — a Dafny model of the bot's core

OpenAIAssistantBot is a Telegram bot that forwards user messages to an
OpenAI assistant and returns the assistant's answers. This project models
the decisions and data structures behind that forwarding, and proves what
they guarantee:

- **ThreadManager**: the thread registry from `thread_manager.py`. It is a
  dictionary from a user key to that user's assistant thread, plus a binary
  min-heap of access records ordered by last access. The model covers access
  updates, get-or-create, single and bulk deletion, and one sweep of idle
  threads. The key type is a parameter.
- **Admission**: `should_bot_respond` from `bot.py`. It covers user and chat
  bans with their reason replies, private chats, the allowed-chat list, and
  addressing by reply or by a case-insensitive @-mention.
- **Cleaning**: `clean_assistant_response` from `bot.py`. Each regular
  expression is an explicit scanner. It removes or rewrites the
  `【n:m†file】` source markers and normalises whitespace.
- **Config**: the settings from `config.py`. This includes the
  `id:reason,id:reason` ban lists (with `\n` escapes), the `USERS` and
  `ALLOWED_CHATS` lists, and the integer settings with their defaults.
- **ChatDirectory**: `ChatManager` from `chat_manager.py`. It is the table of
  chats seen, with first-seen and last-message times. The model also covers
  the mapping between the table and its saved form.
- **Handlers**: `handlers.py`. This covers the guard order of the message
  handler, the loop that waits for an assistant run, and the `/reset` reply.
- **PyStr** and **Wrappers** hold the Python string built-ins the code relies
  on (`strip`, `split`, `lower`, slicing, `int`, `str`), plus `Option` and
  `Result`.

The backend (OpenAI) and the transport (Telegram) are not modelled.
Whatever they answer is a parameter: whether a thread still exists, the id
of a new thread, which deletions fail, the rate limiter's verdict, and the
sequence of run observations. Time is an integer clock in the registry and
the wait loop, and an opaque string in the chat directory.

## Model

| member | source | states |
|---|---|---|
| ThreadManager.HeadIsOldest | src/thread_manager.py:23-24 | In a heap ordered by last access alone, the head is no younger than any node. |
| ThreadManager.HeapPush | src/thread_manager.py:98 | Pushing keeps the min-heap order and adds exactly the one node. |
| ThreadManager.HeapPop | src/thread_manager.py:63 | Popping returns the head and keeps the min-heap order on the remaining nodes, which are the old ones minus the head. |
| ThreadManager.PopYieldsOldest | src/thread_manager.py:56-63 | The popped node is no younger than any node left or before. |
| ThreadManager.ThreadRegistry.constructor | src/thread_manager.py:28-29 | The registry starts with an empty heap and an empty dictionary, which satisfies both invariants. |
| ThreadManager.ThreadRegistry.UpdateThreadAccess | src/thread_manager.py:89-98 | The key's record becomes (thread id, now, key) and every other key is unchanged. Exactly one heap node is added. Heap order and dictionary-in-heap coverage are preserved. |
| ThreadManager.ThreadRegistry.GetOrCreateThread | src/thread_manager.py:111-122 | The existing thread id is returned when there is a record and the backend still has it. Otherwise the new id is returned. Either way the key's record is refreshed to now. |
| ThreadManager.ThreadRegistry.DeleteUserThread | src/thread_manager.py:125-145 | Returns whether the key had a record. Afterwards the key has no record, whatever the backend did, and the heap is unchanged. Coverage is preserved. |
| ThreadManager.ThreadRegistry.DeleteAllThreads | src/thread_manager.py:32-46 | The heap is emptied. Exactly the records whose backend deletion failed remain. |
| ThreadManager.ThreadRegistry.CleanupOldThreads | src/thread_manager.py:55-81 | Popped nodes are all expired and come out in non-decreasing access order. Every node left is within the lifetime, so a node aged exactly the lifetime stays. The popped nodes plus those left are the old heap. The keys of all expired nodes, stale or live, lose their records. |
| ThreadManager.SweepExpired | src/thread_manager.py:55-81 | The same sweep as a loop over a given heap and dictionary. |
| ThreadManager.StaleNodeEvictsLiveRecord | src/thread_manager.py:80-81 | Concrete run: a stale heap node deletes a record last used one second before the sweep, and that record's thread. The validated sweep keeps the record and deletes no thread. |
| ThreadManager.ThreadRegistry.CleanupOldThreadsValidated | src/thread_manager.py:55-81 | Corrected sweep: exactly the records idle longer than the lifetime are dropped. The threads deleted on the backend are those of the dropped records, one per key and no other; a stale node deletes nothing. Heap order and coverage are kept. |
| ThreadManager.SweepExpiredValidated | src/thread_manager.py:55-81 | The corrected sweep loop. A popped node removes its key's record, and has its thread deleted, only when it is that record. The dropped records are exactly the expired ones, each key once. |
| Admission.ShouldBotRespond | src/bot.py:276-349 | The decision procedure computes the admission cascade: Accept, SilentReject, or ReplyReject with a reason. |
| Admission.FindMention | src/bot.py:330-337 | The entity scan is true exactly when some "mention" entity's slice, lower-cased, is "@" plus the lower-cased bot name. |
| Admission.IncompleteIsSilent | src/bot.py:280-289 | No sender or no chat: rejected with no reply. |
| Admission.BannedUserFirst | src/bot.py:291-299 | A banned user gets one reply quoting the stored reason. The chat, the chat bans, the allowed list and the bot record play no part. |
| Admission.PrivateChatAnswered | src/bot.py:301-311 | Private chat: a banned chat gets its reason reply, otherwise the message is accepted without being addressed. |
| Admission.GroupFailsClosed | src/bot.py:313-321 | A group outside a configured allowed list, or an unknown bot record, is rejected silently. |
| Admission.GroupAnsweredIffAddressed | src/bot.py:323-349 | In an allowed group, a message is accepted iff addressed and the chat is not banned. It gets the ban reply iff addressed and the chat is banned. It is silently rejected iff not addressed. |
| Admission.RefusalsQuoteBans | src/bot.py:291-347 | Every refusal with a reply quotes a stored user or chat ban reason. |
| Admission.LowerSlice | src/bot.py:334-335 | Lower-casing commutes with slicing by offset and length. |
| Admission.MentionIgnoresCase | src/bot.py:333-335 | Mention detection gives the same answer for texts and bot names that agree up to ASCII case. |
| Admission.MixedCaseMention | src/bot.py:333-336 | "@MyBot" in the text addresses a bot named "mybot". |
| Cleaning.DigitRun | src/bot.py:358 | Length of the leading `\d+` run. |
| Cleaning.NameRun | src/bot.py:358 | Length of the leading `[^】]` run; it stops at the first closing bracket. |
| Cleaning.Opening | src/bot.py:358 | A recognised opening `【\d+:\d+†` starts with the bracket and ends with the dagger. |
| Cleaning.MatchHead | src/bot.py:358-371 | A marker match starts at `【` and ends at `】`. |
| Cleaning.OpenerRecognised | src/bot.py:358 | `【a:b†`, with digit strings a and b, is recognised as an opening of exactly its own length, whatever follows it. |
| Cleaning.MarkerTextAt | src/bot.py:358 | A text that starts with the marker `【a:b†name】` has it at position 0, and the marker is 4 characters longer than its three parts. |
| Cleaning.MatchesMarker | src/bot.py:358-371 | At a text starting with a marker whose name is non-empty and has no closing bracket, the wildcard rule, the renaming rule, and the removal rule for its own file all match exactly that marker. |
| Cleaning.RemoveFileDeletesMarker | src/bot.py:366 | Removal for a file deletes a leading marker of that file entirely and goes on after it. |
| Cleaning.RemoveFileKeepsOtherMarker | src/bot.py:366 | Removal for a file keeps a leading marker of any other file: its `【` stays and the scan resumes right after it. |
| Cleaning.RenameRewritesMarker | src/bot.py:370-372 | Renaming turns a leading marker into " (name) " and goes on after it. |
| Cleaning.RemoveAllLeavesNoBracket | src/bot.py:358 | When every `【` begins a well-formed marker, the wildcard substitution leaves no `【`. |
| Cleaning.CollapseSpaces | src/bot.py:375 | The result has no two adjacent spaces. It is empty iff the input is, it keeps the first character, and with spaces removed it equals the input with spaces removed. |
| Cleaning.CollapseBlankLines | src/bot.py:376 | Blank-line collapsing keeps emptiness, the first character and freedom from double spaces, and removes only whitespace: every other character is kept, in order. |
| Cleaning.DropSpacesBeforeNewline | src/bot.py:377 | Dropping spaces before a line break keeps emptiness and freedom from double spaces, and removes only spaces: every other character is kept, in order. |
| Cleaning.DropSpacesAfterNewline | src/bot.py:378 | Dropping spaces after a line break keeps emptiness, the first character and freedom from double spaces, and removes only spaces: every other character is kept, in order. |
| Cleaning.StripNoDoubleSpace | src/bot.py:380 | Stripping keeps a string free of double spaces. |
| Cleaning.Normalise | src/bot.py:374-380 | The normalised text has no leading or trailing whitespace and no run of two spaces. |
| Cleaning.CleanAssistantResponse | src/bot.py:352-380 | The step-by-step cleaning computes the cleaned answer, which is always stripped. Off the wildcard path it has no double space. |
| Cleaning.WildcardRemovesEveryMarker | src/bot.py:357-359 | With "*" among the files, when every `【` in the answer opens a complete marker, the wildcard path leaves no `【`. The condition is needed: removing a marker can join the text around it into a new one. |
| PyStr.Strip | src/config.py:51-53 | `strip` leaves no leading or trailing whitespace and removes everything from an all-whitespace string. |
| PyStr.Split | src/config.py:49 | `split` gives at least one piece, none contains the separator, and joining the pieces gives back the input. |
| PyStr.SplitJoin | src/config.py:70 | Splitting a join of separator-free pieces gives back the pieces. |
| PyStr.ParseIntToString | src/config.py:53 | `int(str(n)) == n`. |
| PyStr.IntToStringInjective | src/chat_manager.py:55-58 | Different ids are saved under different keys. |
| Config.UnescapeNewlines | src/config.py:52 | After replacing `\n` escapes, no escape is left. |
| Config.UnescapeEscape | src/config.py:52 | Replacing escapes undoes escaping for text with no escape sequence in it. |
| Config.ParseEntry | src/config.py:50-53 | An entry without ":" is skipped, and only such entries are. A ban's reason is stripped. |
| Config.SplitsAtFirstColon | src/config.py:50-53 | Any entry, with or without surrounding whitespace, splits at the first colon of its stripped form, so the reason may hold colons. The id is the stripped head converted with `int`. The reason has its escapes replaced and is stripped. |
| Config.ParseBanList | src/config.py:46-55 | The loop computes the ban map. An empty string gives an empty map. |
| Config.BanListOfEntries | src/config.py:49 | The ban map of comma-joined comma-free entries is the fold over their outcomes. |
| Config.BadIdStops | src/config.py:48-55 | A non-integer id stops parsing: earlier entries are kept and later ones are dropped. |
| Config.SkipIsNeutral | src/config.py:50 | A skipped entry changes nothing. |
| Config.LaterEntryOverrides | src/config.py:53 | The last entry for an id wins, whatever entries for other ids, or a bad id that stops the parse, follow it. |
| Config.OtherEntriesKeep | src/config.py:53 | Entries for other ids leave an id's reason unchanged. |
| Config.ParseUsers | src/config.py:69-70 | "*" stays the wildcard, and only "*" does. Otherwise the result is the comma-split list with each name stripped. |
| Config.UsersRoundTrip | src/config.py:69-70 | Stripped comma-free names joined with commas read back as those names. |
| Config.ParseIds | src/config.py:72 | Converted ids come one per piece. |
| Config.ParseIdsAllValid | src/config.py:72 | Pieces that all convert give their values in order. |
| Config.ParseIdsOneInvalid | src/config.py:72 | One piece that does not convert fails the whole list. |
| Config.ParseAllowedChats | src/config.py:71-72 | "*" is the wildcard. Otherwise the result is one id per comma-separated piece, or an error. |
| Config.AllowedChatsRoundTrip | src/config.py:71-72 | Ids written with `str` and joined with commas read back as the same ids. |
| Config.LoadSettings | src/config.py:17-31 | Loading fails exactly when one of the five integer settings or a non-wildcard `ALLOWED_CHATS` does not convert with `int`. Loaded settings carry the parsed ban lists, user list and marker flag. |
| Config.LoadedSettings | src/config.py:17-72 | When every integer setting and the chat list convert, every field of the loaded settings is the value its own parser gives. |
| Config.DefaultSettings | src/config.py:17-31 | With nothing set: wildcard users and chats, no bans, 24 h, `links.txt`, markers rewritten, 10000 characters, 120 s, 10 messages per 60 s. |
| ChatDirectory.Touch | src/chat_manager.py:63-77 | An unseen chat is inserted with the given type and name, first and last seen now. A known chat changes only its last-message time, whatever type and name are passed. Other chats are unchanged, and the table grows by at most one entry. |
| ChatDirectory.ChatManager.UpdateChat | src/chat_manager.py:63-77 | The in-place update produces that table and keeps every record under its own id. |
| ChatDirectory.ChatManager.GetChatInfo | src/chat_manager.py:79-81 | Returns the stored record, or None exactly when the id is absent. |
| ChatDirectory.SaveData | src/chat_manager.py:47-61 | Every chat is saved under its decimal id with its four fields, and every saved key is some chat's id. |
| ChatDirectory.SavedItems | src/chat_manager.py:55-58 | The saved entries listed in a given order of ids. |
| ChatDirectory.SaveLoadRoundTrip | src/chat_manager.py:31-58 | Loading the saved table, with its entries in any order naming every chat, gives back the same table. |
| ChatDirectory.SavedItemsListSaveData | src/chat_manager.py:50-58 | Such a listing contains exactly the saved form's entries. |
| ChatDirectory.LoadWellKeyed | src/chat_manager.py:35-43 | Loading files every record under its own id. |
| ChatDirectory.ChatManager.LoadChats | src/chat_manager.py:31-45 | Entries load in file order, and the first bad key or missing field ends the load with earlier entries kept. |
| ChatDirectory.ChatManager.constructor | src/chat_manager.py:19-23 | A new manager holds the table loaded from the saved entries. |
| Handlers.ChatName | src/handlers.py:32-40 | The recorded name is the title when non-empty, otherwise "Private chat with " plus the username, or "None" when there is none. |
| Handlers.Screen | src/handlers.py:26-81 | A message passes the guards exactly when it is complete, admitted, allowed by the user list, not rate-limited, non-empty, within the length limit, and the typing notice is not forbidden. The chat is recorded first. |
| Handlers.IncompleteDoesNothing | src/handlers.py:26-28 | An update without chat, sender or message does nothing. |
| Handlers.NotAdmittedOnlyRecords | src/handlers.py:42-44 | A message that admission rejects only records the chat: no reply, rate check or thread lookup follows. |
| Handlers.NoAccessBeforeRateLimit | src/handlers.py:51-54 | A sender outside the user list gets the no-access reply, and the rate limiter is not asked. |
| Handlers.RateLimitBeforeText | src/handlers.py:57-61 | A rate-limited sender gets the wait reply, whatever the text. |
| Handlers.EmptyTextSilentAfterRateCheck | src/handlers.py:64-66 | Empty text ends silently after the rate check. |
| Handlers.LengthLimitInclusive | src/handlers.py:68-72 | Text over the limit gets the limit reply and nothing more. Text of exactly the limit goes on. |
| Handlers.OnlyGuardedMessagesReachThread | src/handlers.py:84-85 | The thread lookup happens iff every guard passes, and it is keyed by that message's chat and sender. |
| Handlers.PassedMessageAnsweredOnce | src/handlers.py:85-101 | A message through every guard gets exactly one reply: the cleaned answer, or the apology. |
| Handlers.ThreadLookupFailsAsWritten | src/handlers.py:85 | As written, every message through the guards gets the apology and never reaches a thread or the assistant. Keyed by (chat, user), the same message is processed. |
| Handlers.Deliver | src/handlers.py:30-92 | The handler's effects, with the chat directory updated for every complete update. The registry keyed by (chat, user) is touched exactly for messages through every guard. Such a message gets the pair's stored thread when the backend still has it, otherwise the created one. The pair's record is refreshed, the heap gains exactly that access, and coverage of the records by the heap is kept. |
| Handlers.Classify | src/handlers.py:125-146 | A completed run is a success before any status. A timeout happens iff nothing else decided and elapsed exceeds the limit. Polling goes on iff elapsed is within the limit. |
| Handlers.AwaitRun | src/handlers.py:118-148 | The loop stops at the first decisive poll with its outcome, and a cancel is sent iff the wait timed out. |
| Handlers.FirstDecisionIsFirst | src/handlers.py:120-146 | Every poll before the decisive one was still running within the limit. |
| Handlers.TimeoutOnlyPastLimit | src/handlers.py:138-146 | A timeout comes only on a poll past the limit, and every earlier poll was within it. |
| Handlers.CompletionBeatsStatus | src/handlers.py:125-126 | A completed run counts as a success whatever status it reports. |
| Handlers.FailuresDistinct | src/handlers.py:128-146 | The failed, cancelled, expired and timeout errors carry four different messages. |
| Handlers.FailedRunGetsApology | src/handlers.py:94-101 | A run that did not complete reaches the user as the apology. |
| Handlers.ResetReply | src/handlers.py:161-168 | Reply "cleared" iff a thread was deleted, "no active dialogue" iff none existed, and the error reply iff the reset raised. |
| Handlers.ResetThread | src/handlers.py:155-168 | /reset on the registry keyed by (chat, user): the pair's record is gone and the reply says whether it existed. An update without chat or sender gets the error reply. The heap is unchanged, and coverage of the records by the heap is kept. |
| Handlers.ResetThreadAsWritten | src/handlers.py:155-168 | As written, the two-argument `delete_user_thread` call raises, so every /reset gets the error reply and never the cleared or no-dialogue reply. |

## Left out

- The OpenAI calls: thread creation, existence check, deletion, messages, and run create/retrieve/cancel. Their answers are parameters. The "404 / No thread found" text checks only choose a log line.
- The Telegram transport: sending replies, the typing notice (except a forbidden one), `get_me`, application and job wiring, and the `/chatinfo` message text (src/handlers.py:171-186).
- The hourly `while True` around the sweep and the 2-second polling sleeps. One sweep and a finite list of polls are modelled. A wait whose polls never decide is reported as undecided.
- Logging, Sentry, the lock file, and the float Sentry sample rates.
- The JSON file of the chat directory. The saved form is a map from key to a record of string fields. Reading and writing the file, creating it, and the swallowed write errors are not modelled. `get_all_chats` is the `chats` field itself.
- Timestamps: `datetime.now()` is an integer clock in seconds in the registry and the wait loop, and an opaque string in the chat directory.
- `check_rate_limit` is an opaque boolean. `access_control` and `utils` are not part of this model; the visible bodies in `bot.py` of `should_bot_respond` and `clean_assistant_response` are modelled instead.
- Python `int()` accepts an optional sign and ASCII digits inside whitespace here. Underscores and non-ASCII digits are not accepted. `isspace()` is Python's full whitespace set, but `lower()` is the ASCII version, and message offsets index characters, not UTF-16 code units.
- Cleaning.DigitRun: `\d` is taken as the ASCII digits 0-9. Python's `re` also matches the other Unicode decimal digits in a `str` pattern, so a marker written with such digits is not recognised here.
- The heap layout of `heapq`. Only heap order and heap contents are modelled.
- `bot.py`'s copies of the ban parsing and of the registry (src/bot.py:77-105, 130-162, 200-273) are the same logic as `config.py` and `thread_manager.py` and are modelled once.
- `bot.py`'s own `handle_message` and `reset_thread` (src/bot.py:164-198, 383-472), which its `main` registers (src/bot.py:514-520), are a different variant and are not part of this model. That handler has no rate-limit, empty-text or length check, tests `USERS` by membership of the username, looks the thread up by user id alone, and polls until `completed_at` with no failure status and no timeout. That reset deletes the user's thread itself. The second Findings row concerns the handler and the reset of `handlers.py` only.
- Handlers.Screen: `respond` stands for `access_control.should_bot_respond`, which is not part of this model; any refusal reply that function sends is outside the effect list, so Handlers.NotAdmittedOnlyRecords does not cover the ban-reason replies of Admission.ShouldBotRespond.
- ChatDirectory.ChatManager.GetChatInfo: returns the record as a value. In Python it is the stored object, which a later `update_chat` changes in place; that aliasing is not captured.
- Handlers.HandleMessage: exceptions raised by the transport (a failed reply, a typing notice failing for another reason than being forbidden) are not modelled. Only the thread lookup and the assistant run raise.
- Config.ParseIds: its own contract states only the length; what the values are is stated by Config.ParseIdsAllValid and Config.ParseIdsOneInvalid.
- Config.LoadSettings: reads only the settings the core uses. `BOT_TOKEN`, `OPENAI_API_KEY`, `ASSISTANT_ID` and the Sentry settings are not read.

## Findings

| source | as written | input that shows it | evidently intended | confidence | as-written member | corrected member |
|---|---|---|---|---|---|---|
| src/thread_manager.py:80-81 | The sweep deletes the record of the popped node's user without checking that the node is that record. Every access leaves an older node behind. | Key 7 gets thread "thread_a" at time 0 and reuses it at 86400. A sweep at 86401 with a 24-hour lifetime pops the stale node from time 0. It deletes "thread_a" and drops key 7's record, last used one second earlier. | Only records idle longer than the lifetime are dropped, and only their threads are deleted on the backend. | not executed | ThreadManager.StaleNodeEvictsLiveRecord | ThreadManager.ThreadRegistry.CleanupOldThreadsValidated |
| src/handlers.py:85 | `get_or_create_thread(chat_id, user_id)` is called with two arguments, but src/thread_manager.py:111 declares only `user_id`. The TypeError lands in the handler's exception path. `delete_user_thread` at src/handlers.py:161 against src/thread_manager.py:125 is the same, so /reset always gives the error reply (Handlers.ResetThreadAsWritten). | A private-chat message "hi" from an admitted sender who is not rate-limited: the reply is the apology, and the assistant is never asked. | One thread per (chat, user), as the comment at src/handlers.py:83 says. | not executed | Handlers.ThreadLookupFailsAsWritten | Handlers.Deliver |

=== FILE: admission.dfy ===
/**
 * Message admission: whether the bot answers an incoming message at all.
 * Bans come first (with a reply that quotes the stored reason), private chats
 * are always answered, and in groups the bot answers only inside the allowed
 * chats and only when it is addressed: by a reply to one of its messages or
 * by an @-mention of its username, compared without regard to ASCII case.
 */
module Admission {
  import opened Wrappers
  import opened PyStr
  import opened Config

  datatype ChatKind = Private | Group | Supergroup | Channel

  datatype User = User(id: int, username: Option<string>)

  datatype Chat = Chat(id: int, kind: ChatKind, title: Option<string>)

  /** A message entity: its type name and the span of text it covers. */
  datatype Entity = Entity(kind: string, offset: nat, length: nat)

  /**
   * The parts of an incoming message the bot reads.  `replyToAuthor` is the
   * author id of the message this one replies to, when it replies to a
   * message that has an author.  Absent text is the empty string.
   */
  datatype Message = Message(
    sender: Option<User>,
    chat: Option<Chat>,
    text: string,
    entities: seq<Entity>,
    replyToAuthor: Option<int>)

  /** The bot's own account, fetched once at start-up. */
  datatype BotInfo = BotInfo(id: int, username: string)

  /** Answer, ignore, or refuse with one reply. */
  datatype Decision = Accept | SilentReject | ReplyReject(reply: string)

  function UserBanReply(reason: string): string {
    "⛔️ Вы заблокированы.\n\nПричина: " + reason
  }

  function ChatBanReply(reason: string): string {
    "⛔️ Этот чат заблокирован.\n\nПричина: " + reason
  }

  /** The entity is a mention whose text is the bot's @-name, up to case. */
  predicate MentionAt(text: string, e: Entity, botName: string) {
    e.kind == "mention" && Lower(Slice(text, e.offset, e.offset + e.length)) == "@" + Lower(botName)
  }

  predicate Mentions(text: string, entities: seq<Entity>, botName: string) {
    exists i | 0 <= i < |entities| :: MentionAt(text, entities[i], botName)
  }

  predicate RepliesToBot(m: Message, bot: BotInfo) {
    m.replyToAuthor == Some(bot.id)
  }

  /** The message is directed at the bot. */
  predicate Addressed(m: Message, bot: BotInfo) {
    RepliesToBot(m, bot) || Mentions(m.text, m.entities, bot.username)
  }

  /** The admission decision, as a cascade of early returns. */
  function Admit(m: Message, cfg: Settings, bot: Option<BotInfo>): Decision {
    if m.sender.None? || m.chat.None? then SilentReject
    else
      var userId, chatId := m.sender.value.id, m.chat.value.id;
      if userId in cfg.bannedUsers then ReplyReject(UserBanReply(cfg.bannedUsers[userId]))
      else if m.chat.value.kind == Private then
        if chatId in cfg.bannedChats then ReplyReject(ChatBanReply(cfg.bannedChats[chatId])) else Accept
      else if !cfg.allowedChats.Admits(chatId) then SilentReject
      else if bot.None? then SilentReject
      else if Addressed(m, bot.value) && chatId in cfg.bannedChats then
        ReplyReject(ChatBanReply(cfg.bannedChats[chatId]))
      else if Addressed(m, bot.value) then Accept
      else SilentReject
  }

  /** The scan of the entities for a mention of the bot; it stops at the first one. */
  method FindMention(text: string, entities: seq<Entity>, botName: string) returns (found: bool)
    ensures found <==> Mentions(text, entities, botName)
  {
    found := false;
    var target := "@" + Lower(botName);
    for i := 0 to |entities|
      invariant forall j | 0 <= j < i :: !MentionAt(text, entities[j], botName)
    {
      var e := entities[i];
      if e.kind == "mention" {
        var name := Slice(text, e.offset, e.offset + e.length);
        if Lower(name) == target {
          found := true;
          break;
        }
      }
    }
  }

  /** The decision procedure; its outcome is the cascade above. */
  method ShouldBotRespond(m: Message, cfg: Settings, bot: Option<BotInfo>) returns (d: Decision)
    ensures d == Admit(m, cfg, bot)
  {
    if m.sender.None? || m.chat.None? {
      return SilentReject;
    }
    var userId, chat := m.sender.value.id, m.chat.value;
    if userId in cfg.bannedUsers {
      return ReplyReject(UserBanReply(cfg.bannedUsers[userId]));
    }
    if chat.kind == Private {
      if chat.id in cfg.bannedChats {
        return ReplyReject(ChatBanReply(cfg.bannedChats[chat.id]));
      }
      return Accept;
    }
    if cfg.allowedChats.Listed? && chat.id !in cfg.allowedChats.items {
      return SilentReject;
    }
    if bot.None? {
      return SilentReject;
    }
    var isReply := m.replyToAuthor.Some? && m.replyToAuthor.value == bot.value.id;
    var isMention := false;
    if |m.entities| > 0 {
      isMention := FindMention(m.text, m.entities, bot.value.username);
    }
    if (isReply || isMention) && chat.id in cfg.bannedChats {
      return ReplyReject(ChatBanReply(cfg.bannedChats[chat.id]));
    }
    d := if isReply || isMention then Accept else SilentReject;
  }

  // ---------------------------------------------------------------------
  // Properties of the decision
  // ---------------------------------------------------------------------

  /** No sender or no chat: ignored, with no reply. */
  lemma IncompleteIsSilent(m: Message, cfg: Settings, bot: Option<BotInfo>)
    requires m.sender.None? || m.chat.None?
    ensures Admit(m, cfg, bot) == SilentReject
  {
  }

  /**
   * A banned user gets one reply quoting the stored reason, whatever the
   * chat, its bans, the allowed list or the bot's own record say.
   */
  lemma BannedUserFirst(m: Message, cfg: Settings, bot: Option<BotInfo>, otherChat: Chat, otherCfg: Settings, otherBot: Option<BotInfo>)
    requires m.sender.Some? && m.chat.Some? && m.sender.value.id in cfg.bannedUsers
    requires otherCfg.bannedUsers == cfg.bannedUsers
    ensures Admit(m, cfg, bot) == ReplyReject(UserBanReply(cfg.bannedUsers[m.sender.value.id]))
    ensures Admit(m.(chat := Some(otherChat)), otherCfg, otherBot) == Admit(m, cfg, bot)
  {
  }

  /**
   * In a private chat the bot answers without being addressed, unless the
   * chat is banned, and neither the allowed list nor the bot record matter.
   */
  lemma PrivateChatAnswered(m: Message, cfg: Settings, bot: Option<BotInfo>)
    requires m.sender.Some? && m.chat.Some? && m.chat.value.kind == Private
    requires m.sender.value.id !in cfg.bannedUsers
    ensures Admit(m, cfg, bot) == if m.chat.value.id in cfg.bannedChats
                                  then ReplyReject(ChatBanReply(cfg.bannedChats[m.chat.value.id]))
                                  else Accept
  {
  }

  /** A group outside the allowed list, or an unknown bot record, is ignored silently. */
  lemma GroupFailsClosed(m: Message, cfg: Settings, bot: Option<BotInfo>)
    requires m.sender.Some? && m.chat.Some? && m.chat.value.kind != Private
    requires m.sender.value.id !in cfg.bannedUsers
    requires !cfg.allowedChats.Admits(m.chat.value.id) || bot.None?
    ensures Admit(m, cfg, bot) == SilentReject
  {
  }

  /**
   * In an allowed group with a known bot record: answered exactly when
   * addressed and not banned; refused with the ban reason exactly when
   * addressed and banned; otherwise ignored.
   */
  lemma GroupAnsweredIffAddressed(m: Message, cfg: Settings, bot: BotInfo)
    requires m.sender.Some? && m.chat.Some? && m.chat.value.kind != Private
    requires m.sender.value.id !in cfg.bannedUsers && cfg.allowedChats.Admits(m.chat.value.id)
    ensures Admit(m, cfg, Some(bot)) == Accept <==> Addressed(m, bot) && m.chat.value.id !in cfg.bannedChats
    ensures Admit(m, cfg, Some(bot)).ReplyReject? <==> Addressed(m, bot) && m.chat.value.id in cfg.bannedChats
    ensures Admit(m, cfg, Some(bot)) == SilentReject <==> !Addressed(m, bot)
  {
  }

  /** The bot speaks while refusing only to quote a stored ban reason. */
  lemma RefusalsQuoteBans(m: Message, cfg: Settings, bot: Option<BotInfo>)
    requires Admit(m, cfg, bot).ReplyReject?
    ensures var t := Admit(m, cfg, bot).reply;
      (exists u | u in cfg.bannedUsers :: t == UserBanReply(cfg.bannedUsers[u]))
      || (exists c | c in cfg.bannedChats :: t == ChatBanReply(cfg.bannedChats[c]))
  {
    var userId, chatId := m.sender.value.id, m.chat.value.id;
    if userId in cfg.bannedUsers {
      assert Admit(m, cfg, bot).reply == UserBanReply(cfg.bannedUsers[userId]);
    } else {
      assert Admit(m, cfg, bot).reply == ChatBanReply(cfg.bannedChats[chatId]);
    }
  }

  /** Lower-casing commutes with slicing. */
  lemma LowerSlice(s: string, start: nat, end: nat)
    ensures Lower(Slice(s, start, end)) == Slice(Lower(s), start, end)
  {
    var a := if start < |s| then start else |s|;
    var b := if end < |s| then end else |s|;
    if a <= b {
      assert |Lower(s[a..b])| == |Lower(s)[a..b]|;
      forall k | 0 <= k < b - a ensures Lower(s[a..b])[k] == Lower(s)[a..b][k] {
        assert s[a..b][k] == s[a + k];
      }
    }
  }

  /** Mentions are matched without regard to ASCII case, in the text and in the bot's name. */
  lemma {:induction false} MentionIgnoresCase(text: string, text': string, entities: seq<Entity>, name: string, name': string)
    requires Lower(text) == Lower(text') && Lower(name) == Lower(name')
    ensures Mentions(text, entities, name) <==> Mentions(text', entities, name')
  {
    forall i | 0 <= i < |entities|
      ensures MentionAt(text, entities[i], name) <==> MentionAt(text', entities[i], name')
    {
      MentionAtIgnoresCase(text, text', entities[i], name, name');
    }
  }

  /** One entity names the bot in `text` exactly when it does in `text'`. */
  lemma MentionAtIgnoresCase(text: string, text': string, e: Entity, name: string, name': string)
    requires Lower(text) == Lower(text') && Lower(name) == Lower(name')
    ensures MentionAt(text, e, name) <==> MentionAt(text', e, name')
  {
    LowerSlice(text, e.offset, e.offset + e.length);
    LowerSlice(text', e.offset, e.offset + e.length);
  }

  /** A mention is case-insensitive: "@MyBot" in the text addresses a bot named "mybot". */
  lemma MixedCaseMention()
    ensures Mentions("hi @MyBot", [Entity("mention", 3, 6)], "mybot")
  {
    assert Slice("hi @MyBot", 3, 9) == "@MyBot";
    assert Lower("@MyBot") == "@mybot";
    assert Lower("mybot") == "mybot";
    assert MentionAt("hi @MyBot", [Entity("mention", 3, 6)][0], "mybot");
  }
}

=== FILE: chat_directory.dfy ===
/**
 * The directory of chats the bot has seen: one record per chat id with its
 * type, name, and the times it was first and last heard from, and the
 * mapping between that table and the JSON object it is saved as (chat id
 * written as a decimal string, record as an object with four string fields).
 * Times are opaque strings.
 */
module ChatDirectory {
  import opened Wrappers
  import opened PyStr

  datatype ChatInfo = ChatInfo(chatId: int, chatType: string, name: string, firstSeen: string, lastMessage: string)

  /** A saved record: a JSON object whose fields are strings. */
  type Record = map<string, string>

  /** Every record is filed under its own chat id. */
  predicate WellKeyed(chats: map<int, ChatInfo>) {
    forall id | id in chats :: chats[id].chatId == id
  }

  /**
   * The table after a message from `chatId`: an unseen chat is inserted with
   * the given type and name, first and last seen now; a known chat only has
   * its last-message time moved, whatever type and name are passed.
   */
  function Touch(chats: map<int, ChatInfo>, chatId: int, chatType: string, name: string, now: string): (r: map<int, ChatInfo>)
    ensures r.Keys == chats.Keys + {chatId}
    ensures |r| <= |chats| + 1
    ensures forall id | id in chats && id != chatId :: r[id] == chats[id]
    ensures r[chatId].lastMessage == now
    ensures chatId in chats ==>
      r[chatId].chatType == chats[chatId].chatType && r[chatId].name == chats[chatId].name
      && r[chatId].firstSeen == chats[chatId].firstSeen
    ensures chatId !in chats ==> r[chatId] == ChatInfo(chatId, chatType, name, now, now)
    ensures WellKeyed(chats) ==> WellKeyed(r)
  {
    if chatId !in chats then chats[chatId := ChatInfo(chatId, chatType, name, now, now)]
    else chats[chatId := chats[chatId].(lastMessage := now)]
  }

  /** The saved form of one record. */
  function RecordOf(info: ChatInfo): Record {
    map["type" := info.chatType, "name" := info.name, "first_seen" := info.firstSeen, "last_message" := info.lastMessage]
  }

  /** The saved form of the table: each record under its chat id written in decimal. */
  function SaveData(chats: map<int, ChatInfo>): (data: map<string, Record>)
    ensures forall id | id in chats :: IntToString(id) in data && data[IntToString(id)] == RecordOf(chats[id])
    ensures forall key | key in data :: exists id | id in chats :: key == IntToString(id)
  {
    assert forall a, b | IntToString(a) == IntToString(b) :: a == b by {
      forall a, b | IntToString(a) == IntToString(b) ensures a == b {
        IntToStringInjective(a, b);
      }
    }
    map id | id in chats :: IntToString(id) := RecordOf(chats[id])
  }

  /**
   * One saved entry read back: the key converted with `int` and the four
   * fields looked up; a failed conversion or a missing field is an error.
   */
  function ParseRecord(key: string, rec: Record): Option<ChatInfo> {
    match ParseInt(key)
    case None => None
    case Some(id) =>
      if "type" in rec && "name" in rec && "first_seen" in rec && "last_message" in rec
      then Some(ChatInfo(id, rec["type"], rec["name"], rec["first_seen"], rec["last_message"]))
      else None
  }

  /**
   * Loading the saved entries, in file order, into `acc`; the first bad entry
   * ends the load (the loop sits inside one exception handler) and what was
   * loaded before it stays.
   */
  function LoadInto(acc: map<int, ChatInfo>, items: seq<(string, Record)>): map<int, ChatInfo>
    decreases |items|
  {
    if items == [] then acc
    else match ParseRecord(items[0].0, items[0].1)
      case None => acc
      case Some(info) => LoadInto(acc[info.chatId := info], items[1..])
  }

  /** The saved entries of `chats`, listed in the order `order` of their ids. */
  function SavedItems(chats: map<int, ChatInfo>, order: seq<int>): (items: seq<(string, Record)>)
    requires forall i | 0 <= i < |order| :: order[i] in chats
    ensures |items| == |order|
    ensures forall i | 0 <= i < |order| :: items[i] == (IntToString(order[i]), RecordOf(chats[order[i]]))
  {
    seq(|order|, i requires 0 <= i < |order| => (IntToString(order[i]), RecordOf(chats[order[i]])))
  }

  /** A saved record reads back as the record it was saved from. */
  lemma ParseSaved(info: ChatInfo)
    ensures ParseRecord(IntToString(info.chatId), RecordOf(info)) == Some(info)
  {
    ParseIntToString(info.chatId);
    var rec := RecordOf(info);
    assert "type" in rec && rec["type"] == info.chatType;
    assert "name" in rec && rec["name"] == info.name;
    assert "first_seen" in rec && rec["first_seen"] == info.firstSeen;
    assert "last_message" in rec && rec["last_message"] == info.lastMessage;
  }

  lemma {:induction false} LoadSavedItems(chats: map<int, ChatInfo>, order: seq<int>, acc: map<int, ChatInfo>)
    requires WellKeyed(chats)
    requires forall i | 0 <= i < |order| :: order[i] in chats
    ensures var r := LoadInto(acc, SavedItems(chats, order));
      (forall id :: id in r <==> id in acc || id in order)
      && (forall id | id in r :: r[id] == if id in order then chats[id] else acc[id])
    decreases |order|
  {
    if order != [] {
      var id := order[0];
      LoadSavedHead(chats, order, acc);
      LoadSavedItems(chats, order[1..], acc[id := chats[id]]);
      SeqHeadMembers(order);
    }
  }

  /** Loading the saved entries handles the first one, then the rest. */
  lemma LoadSavedHead(chats: map<int, ChatInfo>, order: seq<int>, acc: map<int, ChatInfo>)
    requires WellKeyed(chats) && order != []
    requires forall i | 0 <= i < |order| :: order[i] in chats
    ensures LoadInto(acc, SavedItems(chats, order))
         == LoadInto(acc[order[0] := chats[order[0]]], SavedItems(chats, order[1..]))
  {
    var items := SavedItems(chats, order);
    ParseSaved(chats[order[0]]);
    assert items[1..] == SavedItems(chats, order[1..]);
  }

  /** The members of a non-empty sequence: its head and the members of its tail. */
  lemma SeqHeadMembers(order: seq<int>)
    requires order != []
    ensures forall x :: x in order <==> x == order[0] || x in order[1..]
  {
    assert order == [order[0]] + order[1..];
  }

  /**
   * Saving and loading are inverse: the table saved, with its entries listed
   * in any order that names every chat, loads back as the same table.
   */
  lemma SaveLoadRoundTrip(chats: map<int, ChatInfo>, order: seq<int>)
    requires WellKeyed(chats)
    requires forall i | 0 <= i < |order| :: order[i] in chats
    requires forall id | id in chats :: id in order
    ensures LoadInto(map[], SavedItems(chats, order)) == chats
  {
    LoadSavedItems(chats, order, map[]);
    var r := LoadInto(map[], SavedItems(chats, order));
    forall id ensures id in r <==> id in chats {
    }
    forall id | id in r ensures r[id] == chats[id] {
    }
  }

  /** The listed entries are exactly the saved form's entries, whatever the order. */
  lemma SavedItemsListSaveData(chats: map<int, ChatInfo>, order: seq<int>)
    requires forall i | 0 <= i < |order| :: order[i] in chats
    requires forall id | id in chats :: id in order
    ensures forall i | 0 <= i < |order| :: SavedItems(chats, order)[i].0 in SaveData(chats)
                                      && SaveData(chats)[SavedItems(chats, order)[i].0] == SavedItems(chats, order)[i].1
    ensures forall key | key in SaveData(chats) :: exists i | 0 <= i < |order| :: SavedItems(chats, order)[i].0 == key
  {
    var data := SaveData(chats);
    var items := SavedItems(chats, order);
    forall key | key in data ensures exists i | 0 <= i < |order| :: items[i].0 == key {
      var id :| id in chats && key == IntToString(id);
      var i :| 0 <= i < |order| && order[i] == id;
      assert items[i].0 == key;
    }
  }

  /** Loading produces a table whose records sit under their own ids. */
  lemma {:induction false} LoadWellKeyed(acc: map<int, ChatInfo>, items: seq<(string, Record)>)
    requires WellKeyed(acc)
    ensures WellKeyed(LoadInto(acc, items))
    decreases |items|
  {
    if items != [] {
      match ParseRecord(items[0].0, items[0].1)
      case None =>
      case Some(info) => LoadWellKeyed(acc[info.chatId := info], items[1..]);
    }
  }

  /** The table of known chats, updated in place. */
  class ChatManager {
    var chats: map<int, ChatInfo>

    ghost predicate Valid()
      reads this
    {
      WellKeyed(chats)
    }

    /** A manager whose table is loaded from the saved entries. */
    constructor(saved: seq<(string, Record)>)
      ensures Valid()
      ensures chats == LoadInto(map[], saved)
    {
      chats := map[];
      new;
      LoadChats(saved);
    }

    /** Reads the saved entries into the table, stopping at the first bad one. */
    method LoadChats(saved: seq<(string, Record)>)
      requires Valid()
      modifies this
      ensures Valid()
      ensures chats == LoadInto(old(chats), saved)
    {
      for i := 0 to |saved|
        invariant WellKeyed(chats)
        invariant LoadInto(chats, saved[i..]) == LoadInto(old(chats), saved)
      {
        assert saved[i..][1..] == saved[i + 1..];
        var info := ParseRecord(saved[i].0, saved[i].1);
        if info.None? {
          return;
        }
        chats := chats[info.value.chatId := info.value];
      }
    }

    /** Records a message from a chat; `now` is the current time. */
    method UpdateChat(chatId: int, chatType: string, name: string, now: string)
      requires Valid()
      modifies this
      ensures Valid()
      ensures chats == Touch(old(chats), chatId, chatType, name, now)
    {
      if chatId !in chats {
        chats := chats[chatId := ChatInfo(chatId, chatType, name, now, now)];
      } else {
        chats := chats[chatId := chats[chatId].(lastMessage := now)];
      }
    }

    /** The record of a chat, if it is known. */
    function GetChatInfo(chatId: int): (r: Option<ChatInfo>)
      reads this
      ensures r.Some? <==> chatId in chats
      ensures r.Some? ==> r.value == chats[chatId]
    {
      if chatId in chats then Some(chats[chatId]) else None
    }
  }
}

=== FILE: cleaning.dfy ===
/**
 * Cleaning of the assistant's answer before it is sent: the file-citation
 * markers `【n:m†file】` the assistant inserts are removed (all of them, or
 * those of listed files) or rewritten as ` (file) `, and then runs of spaces,
 * runs of blank lines and spaces around line breaks are normalised.
 *
 * Each regular-expression substitution is an explicit scanner over the
 * remaining text: at the current position either the pattern matches (the
 * match is replaced and scanning resumes after it) or one character is
 * copied, exactly as a left-to-right, non-overlapping substitution does.
 */
module Cleaning {
  import opened Wrappers
  import opened PyStr

  // ---------------------------------------------------------------------
  // Markers
  // ---------------------------------------------------------------------

  const Open: char := '【'
  const Close: char := '】'
  const Dagger: char := '†'

  /** The number of ASCII digits `t` starts with. */
  function DigitRun(t: string): (n: nat)
    ensures n <= |t|
    ensures forall i | 0 <= i < n :: IsDigit(t[i])
    ensures n < |t| ==> !IsDigit(t[n])
  {
    if t != [] && IsDigit(t[0]) then 1 + DigitRun(t[1..]) else 0
  }

  /** The number of characters before the first closing bracket (or the end). */
  function NameRun(t: string): (n: nat)
    ensures n <= |t|
    ensures forall i | 0 <= i < n :: t[i] != Close
    ensures n < |t| ==> t[n] == Close
  {
    if t != [] && t[0] != Close then 1 + NameRun(t[1..]) else 0
  }

  /** The length of the `【digits:digits†` opening `t` starts with, if it starts with one. */
  function Opening(t: string): (k: Option<nat>)
    ensures k.Some? ==> 5 <= k.value <= |t| && t[0] == Open && t[k.value - 1] == Dagger
  {
    if t == [] || t[0] != Open then None
    else
      var a := DigitRun(t[1..]);
      if a == 0 || 1 + a >= |t| || t[1 + a] != ':' then None
      else
        var b := DigitRun(t[2 + a..]);
        if b == 0 || 2 + a + b >= |t| || t[2 + a + b] != Dagger then None
        else Some(3 + a + b)
  }

  /** Which markers a substitution targets. */
  datatype Rule =
    | RemoveAll              // `【\d+:\d+†[^】]+】` replaced by nothing
    | RemoveFile(file: string) // `【\d+:\d+†<file>】` replaced by nothing
    | Rename                 // `【\d+:\d+†([^】]+)】` replaced by ` (<name>) `

  /** A marker at the head of the text: its length and the file name it cites. */
  datatype Marker = Marker(len: nat, name: string)

  /** The marker the rule matches at the head of `t`, if any. */
  function MatchHead(t: string, rule: Rule): (m: Option<Marker>)
    ensures m.Some? ==> 0 < m.value.len <= |t| && t[0] == Open && t[m.value.len - 1] == Close
  {
    match Opening(t)
    case None => None
    case Some(k) =>
      match rule
      case RemoveFile(file) =>
        if k + |file| < |t| && t[k..k + |file|] == file && t[k + |file|] == Close
        then Some(Marker(k + |file| + 1, file))
        else None
      case _ =>
        var n := NameRun(t[k..]);
        if n >= 1 && k + n < |t| then Some(Marker(k + n + 1, t[k..k + n])) else None
  }

  function Replacement(rule: Rule, name: string): string {
    if rule == Rename then " (" + name + ") " else ""
  }

  /** `re.sub` of the rule's pattern over `t`. */
  function Sub(t: string, rule: Rule): string
    decreases |t|
  {
    if t == [] then []
    else match MatchHead(t, rule)
      case Some(m) => Replacement(rule, m.name) + Sub(t[m.len..], rule)
      case None => [t[0]] + Sub(t[1..], rule)
  }

  /** A chunk coordinate as the assistant writes it: one or more digits. */
  predicate Digits(d: string) {
    d != [] && AllDigits(d)
  }

  /** The opening `【a:b†` of the marker for chunk `a:b`. */
  function Opener(a: string, b: string): string {
    [Open] + a + [':'] + b + [Dagger]
  }

  /** The marker text the assistant writes for chunk `a:b` of a file. */
  function MarkerText(a: string, b: string, name: string): string {
    Opener(a, b) + name + [Close]
  }

  /** `Opening` recognises `t` by the positions of its bracket, digits, colon and dagger. */
  lemma OpeningAt(t: string, a: nat, b: nat)
    requires 0 < a && 0 < b && 3 + a + b <= |t|
    requires t[0] == Open && t[1 + a] == ':' && t[2 + a + b] == Dagger
    requires forall i | 1 <= i < 1 + a :: IsDigit(t[i])
    requires forall i | 2 + a <= i < 2 + a + b :: IsDigit(t[i])
    ensures Opening(t) == Some(3 + a + b)
  {
    assert t[1..][a] == t[1 + a];
    assert t[2 + a..][b] == t[2 + a + b];
  }

  /** The opening `【a:b†` of a marker is recognised whatever follows it. */
  lemma OpenerRecognised(a: string, b: string, tail: string)
    requires Digits(a) && Digits(b)
    ensures Opening(Opener(a, b) + tail) == Some(|Opener(a, b)|)
  {
    var t := Opener(a, b) + tail;
    forall i | 1 <= i < 1 + |a| ensures IsDigit(t[i]) {
      assert t[i] == a[i - 1];
    }
    forall i | 2 + |a| <= i < 2 + |a| + |b| ensures IsDigit(t[i]) {
      assert t[i] == b[i - 2 - |a|];
    }
    OpeningAt(t, |a|, |b|);
  }

  /** After a recognised opening, a name and a closing bracket complete a match. */
  lemma MatchAfterOpening(t: string, k: nat, n: nat, rule: Rule)
    requires Opening(t) == Some(k)
    requires 1 <= n && k + n < |t| && t[k + n] == Close
    requires forall i | k <= i < k + n :: t[i] != Close
    requires rule == RemoveAll || rule == Rename || rule == RemoveFile(t[k..k + n])
    ensures MatchHead(t, rule) == Some(Marker(k + n + 1, t[k..k + n]))
  {
    if rule.RemoveFile? {
      FileMatchAfterOpening(t, k, n);
    } else {
      NameMatchAfterOpening(t, k, n, rule);
    }
  }

  lemma FileMatchAfterOpening(t: string, k: nat, n: nat)
    requires Opening(t) == Some(k)
    requires k + n < |t| && t[k + n] == Close
    ensures MatchHead(t, RemoveFile(t[k..k + n])) == Some(Marker(k + n + 1, t[k..k + n]))
  {
  }

  lemma NameMatchAfterOpening(t: string, k: nat, n: nat, rule: Rule)
    requires Opening(t) == Some(k)
    requires 1 <= n && k + n < |t| && t[k + n] == Close
    requires forall i | k <= i < k + n :: t[i] != Close
    requires rule == RemoveAll || rule == Rename
    ensures MatchHead(t, rule) == Some(Marker(k + n + 1, t[k..k + n]))
  {
    assert t[k..][n] == t[k + n];
    assert NameRun(t[k..]) == n;
  }

  /** The length of the marker `【a:b†name】`. */
  function MarkerLen(a: string, b: string, name: string): nat {
    4 + |a| + |b| + |name|
  }

  /** `t` begins with the marker `【a:b†name】`, stated part by part. */
  predicate MarkerAt(t: string, a: string, b: string, name: string) {
    var k := 3 + |a| + |b|;
    && k + |name| < |t|
    && t[0] == Open && t[1..1 + |a|] == a && t[1 + |a|] == ':'
    && t[2 + |a|..2 + |a| + |b|] == b && t[2 + |a| + |b|] == Dagger
    && t[k..k + |name|] == name && t[k + |name|] == Close
  }

  /** The marker text, and any text that continues it, begins with the marker. */
  lemma MarkerTextAt(a: string, b: string, name: string, rest: string)
    ensures |MarkerText(a, b, name)| == MarkerLen(a, b, name)
    ensures MarkerAt(MarkerText(a, b, name) + rest, a, b, name)
  {
    var t, k := MarkerText(a, b, name) + rest, 3 + |a| + |b|;
    assert t[1..1 + |a|] == a by {
      forall i | 0 <= i < |a| ensures t[1..1 + |a|][i] == a[i] {
        assert t[1 + i] == a[i];
      }
    }
    assert t[2 + |a|..2 + |a| + |b|] == b by {
      forall i | 0 <= i < |b| ensures t[2 + |a|..2 + |a| + |b|][i] == b[i] {
        assert t[2 + |a| + i] == b[i];
      }
    }
    assert t[k..k + |name|] == name by {
      forall i | 0 <= i < |name| ensures t[k..k + |name|][i] == name[i] {
        assert t[k + i] == name[i];
      }
    }
  }

  /** The chunk coordinates of a marker at the head of `t` are digit runs, so its opening is recognised. */
  lemma MarkerOpening(t: string, a: string, b: string, name: string)
    requires MarkerAt(t, a, b, name) && Digits(a) && Digits(b)
    ensures Opening(t) == Some(3 + |a| + |b|)
  {
    forall i | 1 <= i < 1 + |a| ensures IsDigit(t[i]) {
      assert t[i] == t[1..1 + |a|][i - 1];
    }
    forall i | 2 + |a| <= i < 2 + |a| + |b| ensures IsDigit(t[i]) {
      assert t[i] == t[2 + |a|..2 + |a| + |b|][i - 2 - |a|];
    }
    OpeningAt(t, |a|, |b|);
  }

  /** The name of a marker at the head of `t` holds no closing bracket. */
  lemma MarkerNameOpen(t: string, a: string, b: string, name: string)
    requires MarkerAt(t, a, b, name) && Close !in name
    ensures forall i | 3 + |a| + |b| <= i < 3 + |a| + |b| + |name| :: t[i] != Close
  {
    var k := 3 + |a| + |b|;
    forall i | k <= i < k + |name| ensures t[i] != Close {
      assert t[i] == t[k..k + |name|][i - k];
    }
  }

  /** A text starting with a marker of a file the rule names matches that marker whole. */
  lemma MatchesMarker(a: string, b: string, name: string, t: string, rule: Rule)
    requires Digits(a) && Digits(b)
    requires name != [] && Close !in name
    requires rule == RemoveAll || rule == Rename || rule == RemoveFile(name)
    requires MarkerAt(t, a, b, name)
    ensures MatchHead(t, rule) == Some(Marker(MarkerLen(a, b, name), name))
  {
    var k := 3 + |a| + |b|;
    MarkerOpening(t, a, b, name);
    MarkerNameOpen(t, a, b, name);
    assert t[k..k + |name|] == name;
    MatchAfterOpening(t, k, |name|, rule);
    assert MatchHead(t, rule) == Some(Marker(k + |name| + 1, name));
  }

  /** Removing the markers of a file deletes a marker of that file whole. */
  lemma RemoveFileDeletesMarker(a: string, b: string, file: string, t: string)
    requires Digits(a) && Digits(b)
    requires file != [] && Close !in file
    requires MarkerAt(t, a, b, file)
    ensures Sub(t, RemoveFile(file)) == Sub(t[MarkerLen(a, b, file)..], RemoveFile(file))
  {
    MatchesMarker(a, b, file, t, RemoveFile(file));
  }

  /** Removing the markers of one file leaves a marker of another file in place. */
  lemma RemoveFileKeepsOtherMarker(a: string, b: string, name: string, file: string, t: string)
    requires Digits(a) && Digits(b)
    requires name != file && Close !in name && Close !in file
    requires MarkerAt(t, a, b, name)
    ensures Sub(t, RemoveFile(file)) == [Open] + Sub(t[1..], RemoveFile(file))
  {
    assert MatchHead(t, RemoveFile(file)).None? by {
      MarkerOpening(t, a, b, name);
      NoOtherFileMatch(t, 3 + |a| + |b|, name, file);
    }
    SubCopiesHead(t, RemoveFile(file));
  }

  /** Where the rule's pattern does not match, the substitution copies one character. */
  lemma SubCopiesHead(t: string, rule: Rule)
    requires t != [] && MatchHead(t, rule).None?
    ensures Sub(t, rule) == [t[0]] + Sub(t[1..], rule)
  {
  }

  /** After an opening, a name closed by a bracket is not any other file's name. */
  lemma NoOtherFileMatch(t: string, k: nat, name: string, file: string)
    requires Opening(t) == Some(k)
    requires name != file && Close !in name && Close !in file
    requires k + |name| < |t| && t[k..k + |name|] == name && t[k + |name|] == Close
    ensures MatchHead(t, RemoveFile(file)).None?
  {
    if |file| < |name| {
      assert t[k + |file|] == t[k..k + |name|][|file|];
    } else if |file| > |name| {
      assert k + |file| < |t| ==> t[k..k + |file|][|name|] == Close;
    } else {
      assert t[k..k + |file|] == name;
    }
  }

  /** Rewriting markers turns a marker into the file name between a space and parentheses. */
  lemma RenameRewritesMarker(a: string, b: string, name: string, t: string)
    requires Digits(a) && Digits(b)
    requires name != [] && Close !in name
    requires MarkerAt(t, a, b, name)
    ensures Sub(t, Rename) == " (" + name + ") " + Sub(t[MarkerLen(a, b, name)..], Rename)
  {
    MatchesMarker(a, b, name, t, Rename);
  }

  /** Every opening bracket in `t` starts a complete marker. */
  predicate MarkersWellFormed(t: string) {
    forall i | 0 <= i < |t| && t[i] == Open :: MatchHead(t[i..], RemoveAll).Some?
  }

  /** When every opening bracket starts a marker, removing all markers leaves none. */
  lemma {:induction false} RemoveAllLeavesNoBracket(t: string)
    requires MarkersWellFormed(t)
    ensures Open !in Sub(t, RemoveAll)
    decreases |t|
  {
    if t != [] {
      var k := SubHead(t);
      WellFormedSuffix(t, k);
      RemoveAllLeavesNoBracket(t[k..]);
    }
  }

  /**
   * The first step of the wildcard substitution over well-formed text: it
   * consumes `k` characters and emits no opening bracket.
   */
  lemma SubHead(t: string) returns (k: nat)
    requires t != [] && MarkersWellFormed(t)
    ensures 0 < k <= |t|
    ensures exists p: string | Open !in p :: Sub(t, RemoveAll) == p + Sub(t[k..], RemoveAll)
  {
    match MatchHead(t, RemoveAll)
    case Some(m) =>
      k := m.len;
      assert Sub(t, RemoveAll) == [] + Sub(t[k..], RemoveAll);
    case None =>
      k := 1;
      assert t[0..] == t;
      assert Sub(t, RemoveAll) == [t[0]] + Sub(t[k..], RemoveAll);
  }

  /** Every suffix of well-formed text is well formed. */
  lemma WellFormedSuffix(t: string, k: nat)
    requires MarkersWellFormed(t) && k <= |t|
    ensures MarkersWellFormed(t[k..])
  {
    forall i | 0 <= i < |t[k..]| && t[k..][i] == Open
      ensures MatchHead(t[k..][i..], RemoveAll).Some?
    {
      assert t[k..][i..] == t[k + i..];
    }
  }

  // ---------------------------------------------------------------------
  // Whitespace normalisation
  // ---------------------------------------------------------------------

  /** No two spaces in a row. */
  predicate NoDoubleSpace(s: string) {
    forall i | 0 <= i < |s| - 1 :: !(s[i] == ' ' && s[i + 1] == ' ')
  }

  lemma NoDoubleSpaceCons(c: char, r: string)
    requires NoDoubleSpace(r)
    requires c == ' ' ==> r == [] || r[0] != ' '
    ensures NoDoubleSpace([c] + r)
  {
    var s := [c] + r;
    forall i | 0 <= i < |s| - 1 ensures !(s[i] == ' ' && s[i + 1] == ' ') {
      if i > 0 {
        assert s[i] == r[i - 1] && s[i + 1] == r[i];
      }
    }
  }

  lemma NoDoubleSpaceAppend(a: string, r: string)
    requires NoDoubleSpace(a) && NoDoubleSpace(r)
    requires a != [] && a[|a| - 1] != ' '
    ensures NoDoubleSpace(a + r)
  {
    var s := a + r;
    forall i | 0 <= i < |s| - 1 ensures !(s[i] == ' ' && s[i + 1] == ' ') {
      if i >= |a| {
        assert s[i] == r[i - |a|] && s[i + 1] == r[i + 1 - |a|];
      } else if i < |a| - 1 {
        assert s[i] == a[i] && s[i + 1] == a[i + 1];
      }
    }
  }

  lemma NoDoubleSpaceSlice(s: string, a: nat, b: nat)
    requires NoDoubleSpace(s) && a <= b <= |s|
    ensures NoDoubleSpace(s[a..b])
  {
    var t := s[a..b];
    forall i | 0 <= i < |t| - 1 ensures !(t[i] == ' ' && t[i + 1] == ' ') {
      assert t[i] == s[a + i] && t[i + 1] == s[a + i + 1];
    }
  }

  /** The number of spaces (U+0020 only) `t` starts with. */
  function SpaceRun(t: string): (n: nat)
    ensures n <= |t|
    ensures forall i | 0 <= i < n :: t[i] == ' '
    ensures n < |t| ==> t[n] != ' '
  {
    if t != [] && t[0] == ' ' then 1 + SpaceRun(t[1..]) else 0
  }

  /** The number of whitespace characters `t` starts with. */
  function WhiteRun(t: string): (n: nat)
    ensures n <= |t|
    ensures forall i | 0 <= i < n :: IsSpace(t[i])
  {
    if t != [] && IsSpace(t[0]) then 1 + WhiteRun(t[1..]) else 0
  }

  /** `t` with every space (U+0020) removed. */
  function Unspaced(t: string): string {
    if t == [] then [] else (if t[0] == ' ' then [] else [t[0]]) + Unspaced(t[1..])
  }

  /** `t` with every whitespace character removed. */
  function Visible(t: string): string {
    if t == [] then [] else (if IsSpace(t[0]) then [] else [t[0]]) + Visible(t[1..])
  }

  lemma UnspacedCons(c: char, r: string)
    ensures Unspaced([c] + r) == (if c == ' ' then [] else [c]) + Unspaced(r)
  {
    assert ([c] + r)[1..] == r;
  }

  lemma VisibleCons(c: char, r: string)
    ensures Visible([c] + r) == (if IsSpace(c) then [] else [c]) + Visible(r)
  {
    assert ([c] + r)[1..] == r;
  }

  /** A leading run of spaces contributes nothing once spaces are removed. */
  lemma {:induction false} UnspacedSkip(t: string, n: nat)
    requires n <= |t|
    requires forall i | 0 <= i < n :: t[i] == ' '
    ensures Unspaced(t) == Unspaced(t[n..])
    decreases n
  {
    if n > 0 {
      assert t[1..][n - 1..] == t[n..];
      UnspacedSkip(t[1..], n - 1);
    }
  }

  /** A leading run of whitespace contributes nothing once whitespace is removed. */
  lemma {:induction false} VisibleSkip(t: string, n: nat)
    requires n <= |t|
    requires forall i | 0 <= i < n :: IsSpace(t[i])
    ensures Visible(t) == Visible(t[n..])
    decreases n
  {
    if n > 0 {
      assert t[1..][n - 1..] == t[n..];
      VisibleSkip(t[1..], n - 1);
    }
  }

  /** `re.sub(" +", " ", t)`: every run of spaces becomes one space. */
  function CollapseSpaces(t: string): (r: string)
    ensures NoDoubleSpace(r)
    ensures r != [] <==> t != []
    ensures r != [] ==> r[0] == t[0]
    ensures Unspaced(r) == Unspaced(t)
    decreases |t|
  {
    if t == [] then []
    else if t[0] == ' ' then
      var rest := CollapseSpaces(t[SpaceRun(t)..]);
      NoDoubleSpaceCons(' ', rest);
      assert Unspaced([' '] + rest) == Unspaced(t) by {
        UnspacedCons(' ', rest);
        UnspacedSkip(t, SpaceRun(t));
      }
      [' '] + rest
    else
      var rest := CollapseSpaces(t[1..]);
      NoDoubleSpaceCons(t[0], rest);
      assert Unspaced([t[0]] + rest) == Unspaced(t) by { UnspacedCons(t[0], rest); }
      [t[0]] + rest
  }

  function CountNewlines(s: string): nat {
    if s == [] then 0 else (if s[0] == '\n' then 1 else 0) + CountNewlines(s[1..])
  }

  /** Index just past the last line break of `s`. */
  function AfterLastNewline(s: string): (e: nat)
    requires '\n' in s
    ensures 0 < e <= |s| && s[e - 1] == '\n'
  {
    if s[|s| - 1] == '\n' then |s| else AfterLastNewline(s[..|s| - 1])
  }

  /**
   * `re.sub(r"\n\s*\n\s*\n", "\n\n", t)`: a line break whose following run of
   * whitespace holds two more line breaks is replaced, up to the last line
   * break of that run, by exactly two line breaks.
   */
  function CollapseBlankLines(t: string): (r: string)
    ensures r != [] <==> t != []
    ensures r != [] ==> r[0] == t[0]
    ensures NoDoubleSpace(t) ==> NoDoubleSpace(r)
    ensures Visible(r) == Visible(t)
    decreases |t|
  {
    if t == [] then []
    else
      var run := t[..1 + WhiteRun(t[1..])];
      if t[0] == '\n' && CountNewlines(run) >= 3 then
        var e := AfterLastNewline(run);
        var rest := CollapseBlankLines(t[e..]);
        BlankRunInvisible(t, e, rest);
        assert NoDoubleSpace(t) ==> NoDoubleSpace("\n\n" + rest) by {
          if NoDoubleSpace(t) {
            NoDoubleSpaceSlice(t, e, |t|);
            NoDoubleSpaceAppend("\n\n", rest);
          }
        }
        "\n\n" + rest
      else
        var rest := CollapseBlankLines(t[1..]);
        assert NoDoubleSpace(t) ==> NoDoubleSpace([t[0]] + rest) by {
          if NoDoubleSpace(t) {
            NoDoubleSpaceSlice(t, 1, |t|);
            NoDoubleSpaceCons(t[0], rest);
          }
        }
        assert Visible([t[0]] + rest) == Visible(t) by { VisibleCons(t[0], rest); }
        [t[0]] + rest
  }

  /**
   * Replacing a line break and the whitespace after it, up to `e`, by two
   * line breaks removes no visible character.
   */
  lemma BlankRunInvisible(t: string, e: nat, rest: string)
    requires t != [] && t[0] == '\n' && 0 < e <= 1 + WhiteRun(t[1..])
    ensures Visible("\n\n" + rest) == Visible(rest)
    ensures Visible(t) == Visible(t[e..])
  {
    VisibleCons('\n', "\n" + rest);
    VisibleCons('\n', rest);
    assert "\n\n" + rest == ['\n'] + (['\n'] + rest);
    forall i | 0 <= i < e ensures IsSpace(t[i]) {
      if i > 0 { assert t[i] == t[1..][i - 1]; }
    }
    VisibleSkip(t, e);
  }

  /** `re.sub(r" +\n", "\n", t)`: spaces right before a line break are dropped. */
  function DropSpacesBeforeNewline(t: string): (r: string)
    ensures r != [] <==> t != []
    ensures r != [] ==> r[0] == t[0] || (t[0] == ' ' && r[0] == '\n')
    ensures NoDoubleSpace(t) ==> NoDoubleSpace(r)
    ensures Unspaced(r) == Unspaced(t)
    decreases |t|
  {
    if t == [] then []
    else
      var n := SpaceRun(t);
      if n > 0 && n < |t| && t[n] == '\n' then
        var rest := DropSpacesBeforeNewline(t[n + 1..]);
        assert Unspaced("\n" + rest) == Unspaced(t) by {
          UnspacedCons('\n', rest);
          UnspacedSkip(t, n);
          assert t[n..][1..] == t[n + 1..];
        }
        assert NoDoubleSpace(t) ==> NoDoubleSpace("\n" + rest) by {
          if NoDoubleSpace(t) {
            NoDoubleSpaceSlice(t, n + 1, |t|);
            NoDoubleSpaceCons('\n', rest);
          }
        }
        "\n" + rest
      else
        var rest := DropSpacesBeforeNewline(t[1..]);
        assert NoDoubleSpace(t) ==> NoDoubleSpace([t[0]] + rest) by {
          if NoDoubleSpace(t) {
            NoDoubleSpaceSlice(t, 1, |t|);
            NoDoubleSpaceCons(t[0], rest);
          }
        }
        assert Unspaced([t[0]] + rest) == Unspaced(t) by { UnspacedCons(t[0], rest); }
        [t[0]] + rest
  }

  /** `re.sub(r"\n +", "\n", t)`: spaces right after a line break are dropped. */
  function DropSpacesAfterNewline(t: string): (r: string)
    ensures r != [] <==> t != []
    ensures r != [] ==> r[0] == t[0]
    ensures NoDoubleSpace(t) ==> NoDoubleSpace(r)
    ensures Unspaced(r) == Unspaced(t)
    decreases |t|
  {
    if t == [] then []
    else
      var n := SpaceRun(t[1..]);
      if t[0] == '\n' && n > 0 then
        var rest := DropSpacesAfterNewline(t[1 + n..]);
        assert Unspaced("\n" + rest) == Unspaced(t) by {
          UnspacedCons('\n', rest);
          UnspacedSkip(t[1..], n);
          assert t[1..][n..] == t[1 + n..];
        }
        assert NoDoubleSpace(t) ==> NoDoubleSpace("\n" + rest) by {
          if NoDoubleSpace(t) {
            NoDoubleSpaceSlice(t, 1 + n, |t|);
            NoDoubleSpaceCons('\n', rest);
          }
        }
        "\n" + rest
      else
        var rest := DropSpacesAfterNewline(t[1..]);
        assert NoDoubleSpace(t) ==> NoDoubleSpace([t[0]] + rest) by {
          if NoDoubleSpace(t) {
            NoDoubleSpaceSlice(t, 1, |t|);
            NoDoubleSpaceCons(t[0], rest);
          }
        }
        assert Unspaced([t[0]] + rest) == Unspaced(t) by { UnspacedCons(t[0], rest); }
        [t[0]] + rest
  }

  /** Stripping keeps a string free of double spaces. */
  lemma StripNoDoubleSpace(s: string)
    requires NoDoubleSpace(s)
    ensures NoDoubleSpace(Strip(s))
  {
    var l := LStrip(s);
    NoDoubleSpaceSlice(s, LeadingSpace(s), |s|);
    NoDoubleSpaceSlice(l, 0, |l| - TrailingSpace(l));
  }

  // ---------------------------------------------------------------------
  // The whole cleaning
  // ---------------------------------------------------------------------

  /** The per-file removals, one file name after another; blank names are skipped. */
  function RemoveFiles(s: string, files: seq<string>): string
    decreases |files|
  {
    if files == [] then s
    else
      var prev := RemoveFiles(s, files[..|files| - 1]);
      var f := Strip(files[|files| - 1]);
      if f != [] then Sub(prev, RemoveFile(f)) else prev
  }

  /** The whitespace normalisation that ends the per-file path. */
  function Normalise(s: string): (r: string)
    ensures IsStripped(r) && NoDoubleSpace(r)
  {
    var r := Strip(DropSpacesAfterNewline(DropSpacesBeforeNewline(CollapseBlankLines(CollapseSpaces(s)))));
    StripNoDoubleSpace(DropSpacesAfterNewline(DropSpacesBeforeNewline(CollapseBlankLines(CollapseSpaces(s)))));
    r
  }

  /**
   * The cleaned answer.  A `"*"` entry in the file list removes every marker
   * and only strips the result; otherwise the listed files' markers are
   * removed, the remaining markers are rewritten when `renameMarkers` holds,
   * and the whitespace is normalised.
   */
  function Clean(response: string, files: seq<string>, renameMarkers: bool): string {
    if "*" in files then Strip(Sub(response, RemoveAll))
    else
      var removed := RemoveFiles(response, files);
      Normalise(if renameMarkers then Sub(removed, Rename) else removed)
  }

  /** The cleaning steps as the bot runs them, one substitution after another. */
  method CleanAssistantResponse(response: string, files: seq<string>, renameMarkers: bool) returns (cleaned: string)
    ensures cleaned == Clean(response, files, renameMarkers)
    ensures IsStripped(cleaned)
    ensures "*" !in files ==> NoDoubleSpace(cleaned)
  {
    cleaned := response;
    if "*" in files {
      cleaned := Sub(cleaned, RemoveAll);
      return Strip(cleaned);
    }
    for i := 0 to |files|
      invariant cleaned == RemoveFiles(response, files[..i])
    {
      assert files[..i + 1][..i] == files[..i];
      var file := Strip(files[i]);
      if file != [] {
        cleaned := Sub(cleaned, RemoveFile(file));
      }
    }
    assert files[..|files|] == files;
    if renameMarkers {
      cleaned := Sub(cleaned, Rename);
    }
    cleaned := CollapseSpaces(cleaned);
    cleaned := CollapseBlankLines(cleaned);
    cleaned := DropSpacesBeforeNewline(cleaned);
    cleaned := DropSpacesAfterNewline(cleaned);
    cleaned := Strip(cleaned);
  }

  /** On the `"*"` path, well-formed markers all disappear. */
  lemma WildcardRemovesEveryMarker(response: string, files: seq<string>, renameMarkers: bool)
    requires "*" in files && MarkersWellFormed(response)
    ensures Open !in Clean(response, files, renameMarkers)
  {
    RemoveAllLeavesNoBracket(response);
  }
}

=== FILE: config.dfy ===
/**
 * The bot's settings as read from the environment: the ban lists
 * `"id:reason,id:reason"`, the `USERS` and `ALLOWED_CHATS` lists with their
 * `"*"` wildcard, and the numeric and flag settings with their defaults.
 * The environment is a map from variable name to value.
 */
module Config {
  import opened Wrappers
  import opened PyStr

  /** A setting that is either the wildcard `"*"` or an explicit list. */
  datatype Scope<T(==)> = Everyone | Listed(items: seq<T>)
  {
    predicate Admits(x: T) {
      Everyone? || x in items
    }
  }

  // ---------------------------------------------------------------------
  // The reason text: a literal backslash-n stands for a line break.
  // ---------------------------------------------------------------------

  /** `s` holds no backslash immediately followed by the letter n. */
  predicate NoEscapedNewline(s: string) {
    forall i | 0 <= i < |s| - 1 :: !(s[i] == '\\' && s[i + 1] == 'n')
  }

  /** `s.replace("\\n", "\n")`: left to right, non-overlapping. */
  function UnescapeNewlines(s: string): (r: string)
    ensures |r| <= |s|
    ensures r == [] || s == [] || (s[0] == '\\' && |s| > 1 && s[1] == 'n' && r[0] == '\n') || r[0] == s[0]
  {
    if |s| >= 2 && s[0] == '\\' && s[1] == 'n' then ['\n'] + UnescapeNewlines(s[2..])
    else if s == [] then []
    else [s[0]] + UnescapeNewlines(s[1..])
  }

  /** How an administrator writes a line break inside one environment variable. */
  function EscapeNewlines(s: string): string {
    if s == [] then []
    else if s[0] == '\n' then ['\\', 'n'] + EscapeNewlines(s[1..])
    else [s[0]] + EscapeNewlines(s[1..])
  }

  /** After the replacement no backslash-n is left. */
  lemma {:induction false} UnescapeLeavesNoEscape(s: string)
    ensures NoEscapedNewline(UnescapeNewlines(s))
  {
    if |s| >= 2 && s[0] == '\\' && s[1] == 'n' {
      UnescapeLeavesNoEscape(s[2..]);
    } else if s != [] {
      UnescapeLeavesNoEscape(s[1..]);
      var r := UnescapeNewlines(s[1..]);
      assert UnescapeNewlines(s) == [s[0]] + r;
      if s[0] == '\\' && r != [] {
        assert s[1..] != [] && s[1] != 'n';
        assert r[0] != 'n';
      }
    }
  }

  /**
   * A reason written with escaped line breaks reads back as written, provided
   * it does not itself hold a backslash-n.
   */
  lemma {:induction false} UnescapeEscape(s: string)
    requires NoEscapedNewline(s)
    ensures UnescapeNewlines(EscapeNewlines(s)) == s
  {
    if s != [] {
      assert NoEscapedNewline(s[1..]) by {
        forall i | 0 <= i < |s[1..]| - 1 ensures !(s[1..][i] == '\\' && s[1..][i + 1] == 'n') {
          assert s[1..][i] == s[i + 1] && s[1..][i + 1] == s[i + 2];
        }
      }
      UnescapeEscape(s[1..]);
      var e := EscapeNewlines(s[1..]);
      if s[0] == '\n' {
        assert EscapeNewlines(s) == ['\\', 'n'] + e;
        assert (['\\', 'n'] + e)[2..] == e;
      } else {
        assert EscapeNewlines(s) == [s[0]] + e;
        assert ([s[0]] + e)[1..] == e;
        if s[0] == '\\' && e != [] {
          assert |s| > 1 && s[1] != 'n';
          assert e[0] != 'n' by { EscapeHead(s[1..]); }
        }
      }
    }
  }

  /** Escaping starts with the first character, or with a backslash for a line break. */
  lemma EscapeHead(s: string)
    requires s != []
    ensures EscapeNewlines(s)[0] == if s[0] == '\n' then '\\' else s[0]
  {
  }

  // ---------------------------------------------------------------------
  // Ban lists
  // ---------------------------------------------------------------------

  /** What one comma-separated ban entry contributes. */
  datatype EntryOutcome = Skip | Ban(id: int, reason: string) | BadId

  /**
   * One entry: without a colon it is skipped; otherwise the stripped entry is
   * split at its FIRST colon, the id is stripped and converted, and the reason
   * has its escaped line breaks replaced and is stripped.  An id that is not
   * an integer is the conversion error that ends the parse.
   */
  function ParseEntry(entry: string): (o: EntryOutcome)
    ensures ':' !in entry <==> o == Skip
    ensures o.Ban? ==> IsStripped(o.reason)
  {
    if ':' !in entry then Skip
    else
      StripKeepsInner(entry, ':');
      SplitEntry(Strip(entry))
  }

  /** A stripped entry holding a colon, split at its first colon. */
  function SplitEntry(t: string): (o: EntryOutcome)
    requires ':' in t
    ensures o != Skip
    ensures o.Ban? ==> IsStripped(o.reason)
  {
    var i := IndexOf(t, ':');
    match ParseInt(Strip(t[..i]))
    case None => BadId
    case Some(id) => Ban(id, Strip(UnescapeNewlines(t[i + 1..])))
  }

  /** A character that is not whitespace survives `strip`. */
  lemma StripKeepsInner(s: string, c: char)
    requires c in s && !IsSpace(c)
    ensures c in Strip(s)
  {
    var k :| 0 <= k < |s| && s[k] == c;
    var l := LStrip(s);
    assert l[k - LeadingSpace(s)] == c;
    var j := k - LeadingSpace(s);
    assert RStrip(l)[j] == c;
  }

  /** The outcome of each entry, in order. */
  function Outcomes(entries: seq<string>): (r: seq<EntryOutcome>)
    ensures |r| == |entries|
    ensures forall k | 0 <= k < |entries| :: r[k] == ParseEntry(entries[k])
  {
    seq(|entries|, k requires 0 <= k < |entries| => ParseEntry(entries[k]))
  }

  /**
   * The outcomes applied in order to `acc`: a ban overwrites any earlier
   * reason for the same id, and the first bad id stops everything after it
   * (the whole loop sits inside one exception handler).
   */
  function ApplyOutcomes(acc: map<int, string>, outs: seq<EntryOutcome>): map<int, string>
    decreases |outs|
  {
    if outs == [] then acc
    else match outs[0]
      case Skip => ApplyOutcomes(acc, outs[1..])
      case Ban(id, reason) => ApplyOutcomes(acc[id := reason], outs[1..])
      case BadId => acc
  }

  /** The ban map a setting value yields; the empty value yields no bans. */
  function BanList(s: string): map<int, string> {
    if s == [] then map[] else ApplyOutcomes(map[], Outcomes(Split(s, ',')))
  }

  /** The parse loop over the comma-separated entries. */
  method ParseBanList(s: string) returns (bans: map<int, string>)
    ensures bans == BanList(s)
    ensures s == [] ==> bans == map[]
  {
    bans := map[];
    if s != [] {
      var entries := Split(s, ',');
      ghost var outs := Outcomes(entries);
      var i := 0;
      while i < |entries|
        invariant 0 <= i <= |entries|
        invariant ApplyOutcomes(bans, outs[i..]) == BanList(s)
      {
        assert outs[i..][1..] == outs[i + 1..];
        var o := ParseEntry(entries[i]);
        assert outs[i..][0] == o;
        match o {
          case Skip =>
          case Ban(id, reason) =>
            bans := bans[id := reason];
          case BadId =>
            return;
        }
        i := i + 1;
      }
    }
  }

  predicate CommaFree(entries: seq<string>) {
    forall k | 0 <= k < |entries| :: ',' !in entries[k]
  }

  /** A setting made of the given entries parses entry by entry. */
  lemma BanListOfEntries(entries: seq<string>)
    requires |entries| >= 1 && CommaFree(entries)
    requires Join(entries, ',') != []
    ensures BanList(Join(entries, ',')) == ApplyOutcomes(map[], Outcomes(entries))
  {
    SplitJoin(entries, ',');
  }

  /** Entries after a bad id are dropped; the ones before it are kept. */
  lemma {:induction false} BadIdStops(acc: map<int, string>, before: seq<EntryOutcome>, after: seq<EntryOutcome>)
    requires BadId !in before
    ensures ApplyOutcomes(acc, before + [BadId] + after) == ApplyOutcomes(acc, before)
    decreases |before|
  {
    if before == [] {
      assert before + [BadId] + after == [BadId] + after;
    } else {
      assert (before + [BadId] + after)[1..] == before[1..] + [BadId] + after;
      match before[0]
      case Skip => BadIdStops(acc, before[1..], after);
      case Ban(id, reason) => BadIdStops(acc[id := reason], before[1..], after);
    }
  }

  /** An entry without a colon changes nothing. */
  lemma {:induction false} SkipIsNeutral(acc: map<int, string>, before: seq<EntryOutcome>, after: seq<EntryOutcome>)
    ensures ApplyOutcomes(acc, before + [Skip] + after) == ApplyOutcomes(acc, before + after)
    decreases |before|
  {
    if before == [] {
      assert before + [Skip] + after == [Skip] + after;
      assert ([Skip] + after)[1..] == after;
      assert before + after == after;
    } else {
      assert (before + [Skip] + after)[1..] == before[1..] + [Skip] + after;
      assert (before + after)[1..] == before[1..] + after;
      match before[0]
      case Skip => SkipIsNeutral(acc, before[1..], after);
      case Ban(id, reason) => SkipIsNeutral(acc[id := reason], before[1..], after);
      case BadId =>
    }
  }

  /**
   * The last entry for an id decides its reason: entries for other ids may
   * follow it, and a bad id after it stops the parse with the reason kept.
   */
  lemma {:induction false} LaterEntryOverrides(acc: map<int, string>, before: seq<EntryOutcome>, id: int, reason: string,
                                               after: seq<EntryOutcome>)
    requires BadId !in before
    requires forall k | 0 <= k < |after| :: !(after[k].Ban? && after[k].id == id)
    ensures var m := ApplyOutcomes(acc, before + [Ban(id, reason)] + after); id in m && m[id] == reason
    decreases |before|
  {
    var all := before + [Ban(id, reason)] + after;
    if before == [] {
      assert all[1..] == after;
      OtherEntriesKeep(acc[id := reason], after, id);
    } else {
      assert all[1..] == before[1..] + [Ban(id, reason)] + after;
      match before[0]
      case Skip => LaterEntryOverrides(acc, before[1..], id, reason, after);
      case Ban(i, r) => LaterEntryOverrides(acc[i := r], before[1..], id, reason, after);
    }
  }

  /** Entries that do not ban `id` leave its reason as it was. */
  lemma {:induction false} OtherEntriesKeep(acc: map<int, string>, outs: seq<EntryOutcome>, id: int)
    requires id in acc
    requires forall k | 0 <= k < |outs| :: !(outs[k].Ban? && outs[k].id == id)
    ensures id in ApplyOutcomes(acc, outs) && ApplyOutcomes(acc, outs)[id] == acc[id]
    decreases |outs|
  {
    if outs != [] {
      assert forall k | 0 <= k < |outs| - 1 :: outs[1..][k] == outs[k + 1];
      match outs[0]
      case Skip => OtherEntriesKeep(acc, outs[1..], id);
      case Ban(i, r) => OtherEntriesKeep(acc[i := r], outs[1..], id);
      case BadId =>
    }
  }

  /**
   * An entry splits at the first colon of its stripped form: with an id part
   * free of colons, everything after that colon is the reason, colons
   * included.  The entry itself may carry whitespace around it, as the pieces
   * after the first one of "1:a, 2:b" do.
   */
  lemma SplitsAtFirstColon(entry: string, head: string, reason: string, id: int)
    requires Strip(entry) == head + ":" + reason
    requires ':' !in head && ParseInt(Strip(head)) == Some(id)
    ensures ParseEntry(entry) == Ban(id, Strip(UnescapeNewlines(reason)))
  {
    assert (head + ":" + reason)[|head|] == ':';
    StripInside(entry, ':');
    ColonSplit(head, reason);
  }

  /** Whatever `strip` leaves was in the string. */
  lemma StripInside(s: string, c: char)
    requires c in Strip(s)
    ensures c in s
  {
    var t := Strip(s);
    var k :| 0 <= k < |t| && t[k] == c;
    assert LStrip(s)[k] == c;
    assert s[LeadingSpace(s) + k] == c;
  }

  /** The first colon of `head + ":" + rest` is the one after `head` when `head` has none. */
  lemma ColonSplit(head: string, rest: string)
    requires ':' !in head
    ensures var e := head + ":" + rest;
      IndexOf(e, ':') == |head| && e[..|head|] == head && e[|head| + 1..] == rest
  {
    var e := head + ":" + rest;
    assert e[|head|] == ':';
  }

  /** `str(n)` is digits with an optional minus sign: no colon, no comma, no whitespace. */
  lemma IntToStringShape(n: int)
    ensures IntToString(n) != []
    ensures forall k | 0 <= k < |IntToString(n)| :: IntToString(n)[k] == '-' || IsDigit(IntToString(n)[k])
    ensures IsStripped(IntToString(n))
  {
  }

  // ---------------------------------------------------------------------
  // USERS and ALLOWED_CHATS
  // ---------------------------------------------------------------------

  /** `USERS`: the wildcard stays a wildcard; otherwise the comma-split, stripped names. */
  function ParseUsers(s: string): (r: Scope<string>)
    ensures s == "*" <==> r.Everyone?
    ensures r.Listed? ==> |r.items| == |Split(s, ',')| >= 1
    ensures r.Listed? ==> forall k | 0 <= k < |r.items| :: r.items[k] == Strip(Split(s, ',')[k])
  {
    if s == "*" then Everyone
    else
      var parts := Split(s, ',');
      Listed(seq(|parts|, k requires 0 <= k < |parts| => Strip(parts[k])))
  }

  /** A list written as stripped, comma-free names reads back as those names. */
  lemma UsersRoundTrip(names: seq<string>)
    requires |names| >= 1 && CommaFree(names)
    requires forall k | 0 <= k < |names| :: IsStripped(names[k])
    requires Join(names, ',') != "*"
    ensures ParseUsers(Join(names, ',')) == Listed(names)
  {
    var s := Join(names, ',');
    SplitJoin(names, ',');
    var r := ParseUsers(s);
    assert r.Listed? && |r.items| == |names|;
    forall k | 0 <= k < |names| ensures r.items[k] == names[k] {
      assert r.items[k] == Strip(Split(s, ',')[k]);
      StripStripped(names[k]);
    }
    assert r.items == names;
  }

  /** Each comma-separated id converted with `int`; one bad id fails the whole list. */
  function ParseIds(parts: seq<string>): (r: Option<seq<int>>)
    ensures r.Some? ==> |r.value| == |parts|
  {
    if parts == [] then Some([])
    else
      var head, rest := ParseInt(Strip(parts[0])), ParseIds(parts[1..]);
      if head.Some? && rest.Some? then Some([head.value] + rest.value) else None
  }

  /** Ids that all convert give the list of their values, in order. */
  lemma {:induction false} ParseIdsAllValid(parts: seq<string>, ids: seq<int>)
    requires |parts| == |ids|
    requires forall k | 0 <= k < |parts| :: ParseInt(Strip(parts[k])) == Some(ids[k])
    ensures ParseIds(parts) == Some(ids)
  {
    if parts != [] {
      ParseIdsAllValid(parts[1..], ids[1..]);
      assert ids == [ids[0]] + ids[1..];
    }
  }

  /** A single id that does not convert fails the whole list. */
  lemma {:induction false} ParseIdsOneInvalid(parts: seq<string>, k: nat, bad: string)
    requires k < |parts| && parts[k] == bad && ParseInt(Strip(bad)).None?
    ensures ParseIds(parts).None?
  {
    if k == 0 {
      ParseIdsHeadInvalid(parts);
    } else {
      var tail := parts[1..];
      assert tail[k - 1] == bad;
      ParseIdsOneInvalid(tail, k - 1, bad);
      ParseIdsTailInvalid(parts);
    }
  }

  lemma ParseIdsHeadInvalid(parts: seq<string>)
    requires parts != [] && ParseInt(Strip(parts[0])).None?
    ensures ParseIds(parts).None?
  {
  }

  lemma ParseIdsTailInvalid(parts: seq<string>)
    requires parts != [] && ParseIds(parts[1..]).None?
    ensures ParseIds(parts).None?
  {
  }

  /**
   * `ALLOWED_CHATS`: the wildcard, or the list of integer chat ids; an id that
   * is not an integer is an error raised while the settings load.
   */
  function ParseAllowedChats(s: string): (r: Result<Scope<int>, string>)
    ensures s == "*" ==> r == Success(Everyone)
    ensures r.Success? && s != "*" ==> r.value.Listed? && |r.value.items| == |Split(s, ',')|
  {
    if s == "*" then Success(Everyone)
    else match ParseIds(Split(s, ','))
      case Some(ids) => Success(Listed(ids))
      case None => Failure("invalid literal for int() in ALLOWED_CHATS")
  }

  function IdStrings(ids: seq<int>): (r: seq<string>)
    ensures |r| == |ids| && forall k | 0 <= k < |ids| :: r[k] == IntToString(ids[k])
  {
    seq(|ids|, k requires 0 <= k < |ids| => IntToString(ids[k]))
  }

  /** A list of chat ids written out with `str` and commas reads back as the same ids. */
  lemma AllowedChatsRoundTrip(ids: seq<int>)
    requires |ids| >= 1
    ensures ParseAllowedChats(Join(IdStrings(ids), ',')) == Success(Listed(ids))
  {
    var parts := IdStrings(ids);
    forall k | 0 <= k < |parts| ensures ',' !in parts[k] && ParseInt(Strip(parts[k])) == Some(ids[k]) {
      IntToStringShape(ids[k]);
      StripStripped(parts[k]);
      ParseIntToString(ids[k]);
    }
    SplitJoin(parts, ',');
    var s := Join(parts, ',');
    assert s != "*" by {
      JoinHead(parts, ',');
      IntToStringShape(ids[0]);
    }
    ParseIdsAllValid(parts, ids);
  }

  /** A join starts with the first piece when that piece is not empty. */
  lemma JoinHead(pieces: seq<string>, sep: char)
    requires |pieces| >= 1 && pieces[0] != []
    ensures Join(pieces, sep) != [] && Join(pieces, sep)[0] == pieces[0][0]
  {
  }

  // ---------------------------------------------------------------------
  // The settings the core reads
  // ---------------------------------------------------------------------

  datatype Settings = Settings(
    users: Scope<string>,
    allowedChats: Scope<int>,
    bannedUsers: map<int, string>,
    bannedChats: map<int, string>,
    threadLifetimeHours: int,
    chunkFiles: seq<string>,
    removeChunkMarkers: bool,
    maxMessageLength: int,
    assistantTimeout: int,
    rateLimitMessages: int,
    rateLimitWindow: int)

  /** `os.getenv(key, default)`. */
  function Env(env: map<string, string>, key: string, default: string): string {
    if key in env then env[key] else default
  }

  /**
   * Loading the settings: an integer setting or `ALLOWED_CHATS` that does not
   * convert is an error; the ban lists never are.
   */
  function LoadSettings(env: map<string, string>): (r: Result<Settings, string>)
    ensures r.Failure? <==>
      || ParseInt(Env(env, "THREAD_LIFETIME_HOURS", "24")).None?
      || ParseInt(Env(env, "MAX_MESSAGE_LENGTH", "10000")).None?
      || ParseInt(Env(env, "ASSISTANT_TIMEOUT", "120")).None?
      || ParseInt(Env(env, "RATE_LIMIT_MESSAGES", "10")).None?
      || ParseInt(Env(env, "RATE_LIMIT_WINDOW", "60")).None?
      || ParseAllowedChats(Env(env, "ALLOWED_CHATS", "*")).Failure?
    ensures r.Success? ==> r.value.bannedUsers == BanList(Env(env, "BANNED_USERS", ""))
    ensures r.Success? ==> r.value.bannedChats == BanList(Env(env, "BANNED_CHATS", ""))
    ensures r.Success? ==> r.value.users == ParseUsers(Env(env, "USERS", "*"))
    ensures r.Success? ==> r.value.removeChunkMarkers == (Lower(Env(env, "REMOVE_CHUNK_MARKERS", "true")) == "true")
  {
    var lifetime := ParseInt(Env(env, "THREAD_LIFETIME_HOURS", "24"));
    var maxLen := ParseInt(Env(env, "MAX_MESSAGE_LENGTH", "10000"));
    var timeout := ParseInt(Env(env, "ASSISTANT_TIMEOUT", "120"));
    var rateMessages := ParseInt(Env(env, "RATE_LIMIT_MESSAGES", "10"));
    var rateWindow := ParseInt(Env(env, "RATE_LIMIT_WINDOW", "60"));
    var chats := ParseAllowedChats(Env(env, "ALLOWED_CHATS", "*"));
    if lifetime.None? || maxLen.None? || timeout.None? || rateMessages.None? || rateWindow.None? || chats.Failure? then
      Failure("invalid literal for int()")
    else
      Success(Settings(
        ParseUsers(Env(env, "USERS", "*")),
        chats.value,
        BanList(Env(env, "BANNED_USERS", "")),
        BanList(Env(env, "BANNED_CHATS", "")),
        lifetime.value,
        Split(Env(env, "REMOVE_CHUNKS_FOR_FILES", "links.txt"), ','),
        Lower(Env(env, "REMOVE_CHUNK_MARKERS", "true")) == "true",
        maxLen.value,
        timeout.value,
        rateMessages.value,
        rateWindow.value))
  }

  /** The settings loaded when every integer setting and the chat list convert. */
  lemma LoadedSettings(env: map<string, string>, chats: Scope<int>,
                       lifetime: int, maxLen: int, timeout: int, rateMessages: int, rateWindow: int)
    requires ParseInt(Env(env, "THREAD_LIFETIME_HOURS", "24")) == Some(lifetime)
    requires ParseInt(Env(env, "MAX_MESSAGE_LENGTH", "10000")) == Some(maxLen)
    requires ParseInt(Env(env, "ASSISTANT_TIMEOUT", "120")) == Some(timeout)
    requires ParseInt(Env(env, "RATE_LIMIT_MESSAGES", "10")) == Some(rateMessages)
    requires ParseInt(Env(env, "RATE_LIMIT_WINDOW", "60")) == Some(rateWindow)
    requires ParseAllowedChats(Env(env, "ALLOWED_CHATS", "*")) == Success(chats)
    ensures LoadSettings(env) == Success(Settings(
      ParseUsers(Env(env, "USERS", "*")), chats,
      BanList(Env(env, "BANNED_USERS", "")), BanList(Env(env, "BANNED_CHATS", "")),
      lifetime, Split(Env(env, "REMOVE_CHUNKS_FOR_FILES", "links.txt"), ','),
      Lower(Env(env, "REMOVE_CHUNK_MARKERS", "true")) == "true",
      maxLen, timeout, rateMessages, rateWindow))
  {
  }

  /**
   * With nothing set: everyone admitted, no bans, 24 hours, `links.txt`,
   * markers rewritten, 10000 characters, 120 seconds, 10 messages per 60 seconds.
   */
  lemma DefaultSettings()
    ensures LoadSettings(map[]) == Success(Settings(Everyone, Everyone, map[], map[], 24, ["links.txt"], true, 10000, 120, 10, 60))
  {
    var env: map<string, string> := map[];
    DefaultLifetimeParses();
    DefaultMaxLengthParses();
    DefaultTimeoutParses();
    DefaultRateParses();
    LoadedSettings(env, Everyone, 24, 10000, 120, 10, 60);
    DefaultTexts();
  }

  lemma DefaultTexts()
    ensures Split("links.txt", ',') == ["links.txt"]
    ensures Lower("true") == "true"
  {
    var files := "links.txt";
    assert forall i | 0 <= i < |files| :: files[i] != ',';
    var flag := "true";
    forall i | 0 <= i < |flag| ensures Lower(flag)[i] == flag[i] {
    }
  }

  /** A plain run of decimal digits converts to its value. */
  lemma ParseDigitRun(d: string)
    requires d != [] && AllDigits(d)
    ensures ParseInt(d) == Some(DigitsValue(d))
  {
    assert !IsSpace(d[0]) && !IsSpace(d[|d| - 1]);
    StripStripped(d);
  }

  /** Appending a digit multiplies the value by ten and adds the digit. */
  lemma DigitsSnoc(d: string, c: char)
    requires AllDigits(d) && IsDigit(c)
    ensures AllDigits(d + [c]) && DigitsValue(d + [c]) == 10 * DigitsValue(d) + DigitValue(c)
  {
    assert (d + [c])[..|d|] == d;
  }

  /** The value of a one-digit run. */
  lemma OneDigit(c: char)
    requires IsDigit(c)
    ensures AllDigits([c]) && DigitsValue([c]) == DigitValue(c)
  {
    DigitsSnoc([], c);
  }

  lemma DefaultLifetimeParses()
    ensures ParseInt("24") == Some(24)
  {
    OneDigit('2');
    DigitsSnoc(['2'], '4');
    assert ['2'] + ['4'] == "24";
    ParseDigitRun("24");
  }

  lemma DefaultMaxLengthParses()
    ensures ParseInt("10000") == Some(10000)
  {
    HundredDigits();
    var d := "100";
    DigitsSnoc(d, '0');
    assert d + ['0'] == "1000";
    DigitsSnoc("1000", '0');
    assert "1000" + ['0'] == "10000";
    ParseDigitRun("10000");
  }

  lemma HundredDigits()
    ensures AllDigits("100") && DigitsValue("100") == 100
  {
    OneDigit('1');
    DigitsSnoc("1", '0');
    assert "1" + ['0'] == "10";
    DigitsSnoc("10", '0');
    assert "10" + ['0'] == "100";
  }

  lemma DefaultTimeoutParses()
    ensures ParseInt("120") == Some(120)
  {
    OneDigit('1');
    DigitsSnoc(['1'], '2');
    DigitsSnoc(['1', '2'], '0');
    assert ['1'] + ['2'] == ['1', '2'] && ['1', '2'] + ['0'] == "120";
    ParseDigitRun("120");
  }

  lemma DefaultRateParses()
    ensures ParseInt("10") == Some(10)
    ensures ParseInt("60") == Some(60)
  {
    OneDigit('1');
    DigitsSnoc(['1'], '0');
    assert ['1'] + ['0'] == "10";
    ParseDigitRun("10");
    OneDigit('6');
    DigitsSnoc(['6'], '0');
    assert ['6'] + ['0'] == "60";
    ParseDigitRun("60");
  }
}

=== FILE: handlers.dfy ===
/**
 * The Telegram handlers: the guard sequence of the message handler and what
 * it does once a message gets through, the loop that waits for an assistant
 * run to finish, and the reply of the /reset command.
 *
 * The handler is modelled as the list of effects it produces, in order.
 * What the outside world answers is given as a parameter: the admission
 * decision, the rate limiter's verdict, whether the typing notice is
 * forbidden, and how the assistant run ended.
 */
module Handlers {
  import opened Wrappers
  import opened PyStr
  import opened Config
  import opened Admission
  import opened Cleaning
  import opened ChatDirectory
  import ThreadManager

  // ---------------------------------------------------------------------
  // Replies
  // ---------------------------------------------------------------------

  const NoAccessReply := "У вас нет доступа к боту."
  const ProcessingErrorReply := "Произошла ошибка при обработке сообщения. Пожалуйста, попробуйте позже."
  const ClearedReply := "✅ История диалога очищена."
  const NoDialogueReply := "ℹ️ У вас нет активного диалога."
  const ResetErrorReply := "❌ Произошла ошибка при сбросе диалога."

  function RateLimitReply(window: int): string {
    "Слишком много сообщений. Подождите немного (" + IntToString(window) + " сек)."
  }

  function TooLongReply(maxLength: int): string {
    "Сообщение слишком длинное. Максимум: " + IntToString(maxLength) + " символов."
  }

  // ---------------------------------------------------------------------
  // The message handler
  // ---------------------------------------------------------------------

  /** The parts of an update the handler reads; absent text is the empty string. */
  datatype Update = Update(chat: Option<Chat>, user: Option<User>, hasMessage: bool, text: string)

  /** What the handler does, in the order it does it. */
  datatype Effect =
    | RecordChat(chatId: int, chatType: string, name: string)
    | Reply(text: string)
    | CheckRate(userId: int)
    | Typing(chatId: int)
    | LookupThread(chatId: int, userId: int)
    | Ask(text: string)

  /** Telegram's name of a chat type. */
  function KindName(k: ChatKind): string {
    match k
    case Private => "private"
    case Group => "group"
    case Supergroup => "supergroup"
    case Channel => "channel"
  }

  /**
   * The name recorded for a chat: its title when that is non-empty,
   * otherwise a private-chat label with the sender's username (Python
   * formats a missing one as "None").
   */
  function ChatName(chat: Chat, user: User): (name: string)
    ensures chat.title.Some? && chat.title.value != "" ==> name == chat.title.value
    ensures !(chat.title.Some? && chat.title.value != "") ==>
      name == "Private chat with " + user.username.GetOr("None")
  {
    if chat.title.Some? && chat.title.value != "" then chat.title.value
    else "Private chat with " + user.username.GetOr("None")
  }

  /** The update has everything the handler needs. */
  predicate Complete(u: Update) {
    u.chat.Some? && u.user.Some? && u.hasMessage
  }

  /** The sender is allowed by the username list. */
  predicate UserAdmitted(cfg: Settings, user: User) {
    cfg.users.Everyone? || (user.username.Some? && cfg.users.Admits(user.username.value))
  }

  /** The update passes every guard before the thread lookup. */
  predicate PassesGuards(u: Update, cfg: Settings, respond: bool, rateOk: bool, typingAllowed: bool) {
    Complete(u) && respond && UserAdmitted(cfg, u.user.value) && rateOk
    && u.text != "" && |u.text| <= cfg.maxMessageLength && typingAllowed
  }

  /** The outcome of the guards: stopped with the effects so far, or through. */
  datatype Screening =
    | Stop(effects: seq<Effect>)
    | Pass(effects: seq<Effect>, chatId: int, userId: int, text: string)

  /**
   * The guards of the handler, in source order: incomplete update, the
   * chat record, admission, the username list, the rate limiter, empty
   * text, length, and the typing notice (a forbidden one ends silently).
   */
  function Screen(u: Update, cfg: Settings, respond: bool, rateOk: bool, typingAllowed: bool): (s: Screening)
    ensures s.Pass? <==> PassesGuards(u, cfg, respond, rateOk, typingAllowed)
    ensures s.Pass? ==> s.chatId == u.chat.value.id && s.userId == u.user.value.id && s.text == u.text
    ensures s.Pass? ==> forall i | 0 <= i < |s.effects| :: !s.effects[i].Reply?
    ensures Complete(u) ==>
      |s.effects| > 0
      && s.effects[0] == RecordChat(u.chat.value.id, KindName(u.chat.value.kind), ChatName(u.chat.value, u.user.value))
    ensures !Complete(u) ==> s == Stop([])
  {
    if !Complete(u) then Stop([])
    else
      var chat, user := u.chat.value, u.user.value;
      var seen := [RecordChat(chat.id, KindName(chat.kind), ChatName(chat, user))];
      if !respond then Stop(seen)
      else if !UserAdmitted(cfg, user) then Stop(seen + [Reply(NoAccessReply)])
      else
        var checked := seen + [CheckRate(user.id)];
        if !rateOk then Stop(checked + [Reply(RateLimitReply(cfg.rateLimitWindow))])
        else if u.text == "" then Stop(checked)
        else if |u.text| > cfg.maxMessageLength then Stop(checked + [Reply(TooLongReply(cfg.maxMessageLength))])
        else
          var typing := checked + [Typing(chat.id)];
          if !typingAllowed then Stop(typing) else Pass(typing, chat.id, user.id, u.text)
  }

  /** The reply to a message the assistant processed: the cleaned answer, or the apology on any error. */
  function AnswerReply(answer: Result<string, string>, cfg: Settings): string {
    if answer.Success? then Clean(answer.value, cfg.chunkFiles, cfg.removeChunkMarkers)
    else ProcessingErrorReply
  }

  /**
   * The handler with the thread functions keyed by chat and user: a message
   * through every guard looks up the (chat, user) thread, goes to the
   * assistant, and the answer, cleaned, is the reply.
   */
  function HandleMessage(u: Update, cfg: Settings, respond: bool, rateOk: bool, typingAllowed: bool,
                         answer: Result<string, string>): seq<Effect>
  {
    match Screen(u, cfg, respond, rateOk, typingAllowed)
    case Stop(e) => e
    case Pass(e, chatId, userId, text) => e + [LookupThread(chatId, userId), Ask(text), Reply(AnswerReply(answer, cfg))]
  }

  /**
   * The handler as written: the thread lookup passes chat id and user id to
   * a function that takes the user id alone, which raises a TypeError; the
   * handler's exception path answers with the apology.
   */
  function HandleMessageAsWritten(u: Update, cfg: Settings, respond: bool, rateOk: bool, typingAllowed: bool): seq<Effect> {
    match Screen(u, cfg, respond, rateOk, typingAllowed)
    case Stop(e) => e
    case Pass(e, _, _, _) => e + [Reply(ProcessingErrorReply)]
  }

  // ---------------------------------------------------------------------
  // Properties of the guard order
  // ---------------------------------------------------------------------

  /** An update missing its chat, sender or message does nothing at all. */
  lemma IncompleteDoesNothing(u: Update, cfg: Settings, respond: bool, rateOk: bool, typingAllowed: bool, answer: Result<string, string>)
    requires !Complete(u)
    ensures HandleMessage(u, cfg, respond, rateOk, typingAllowed, answer) == []
  {
  }

  /**
   * When admission says no, the chat is still recorded, and nothing follows:
   * no reply, no rate check, no thread lookup.
   */
  lemma NotAdmittedOnlyRecords(u: Update, cfg: Settings, rateOk: bool, typingAllowed: bool, answer: Result<string, string>)
    requires Complete(u)
    ensures var e := HandleMessage(u, cfg, false, rateOk, typingAllowed, answer);
      |e| == 1 && e[0].RecordChat?
  {
  }

  /** A sender outside the username list is told so, and the rate limiter is never asked. */
  lemma NoAccessBeforeRateLimit(u: Update, cfg: Settings, rateOk: bool, typingAllowed: bool, answer: Result<string, string>)
    requires Complete(u) && !UserAdmitted(cfg, u.user.value)
    ensures var e := HandleMessage(u, cfg, true, rateOk, typingAllowed, answer);
      |e| == 2 && e[1] == Reply(NoAccessReply)
      && forall i | 0 <= i < |e| :: !e[i].CheckRate?
  {
  }

  /** A rate-limited sender gets the wait reply whatever the text is: the text is never examined. */
  lemma RateLimitBeforeText(u: Update, cfg: Settings, typingAllowed: bool, answer: Result<string, string>, otherText: string)
    requires Complete(u) && UserAdmitted(cfg, u.user.value)
    ensures var e := HandleMessage(u, cfg, true, false, typingAllowed, answer);
      |e| == 3 && e[1] == CheckRate(u.user.value.id) && e[2] == Reply(RateLimitReply(cfg.rateLimitWindow))
      && e == HandleMessage(u.(text := otherText), cfg, true, false, typingAllowed, answer)
  {
  }

  /** Empty text ends silently, after the rate limiter was asked. */
  lemma EmptyTextSilentAfterRateCheck(u: Update, cfg: Settings, typingAllowed: bool, answer: Result<string, string>)
    requires Complete(u) && UserAdmitted(cfg, u.user.value) && u.text == ""
    ensures var e := HandleMessage(u, cfg, true, true, typingAllowed, answer);
      |e| == 2 && e[1] == CheckRate(u.user.value.id)
  {
  }

  /**
   * The length limit is inclusive: a text longer than the limit gets the
   * limit reply and never reaches a thread, one of exactly the limit goes on.
   */
  lemma LengthLimitInclusive(u: Update, cfg: Settings, typingAllowed: bool, answer: Result<string, string>)
    requires Complete(u) && UserAdmitted(cfg, u.user.value) && u.text != ""
    ensures |u.text| > cfg.maxMessageLength ==>
      HandleMessage(u, cfg, true, true, typingAllowed, answer)
        == HandleMessage(u, cfg, true, true, typingAllowed, answer)[..2] + [Reply(TooLongReply(cfg.maxMessageLength))]
    ensures |u.text| == cfg.maxMessageLength ==>
      Typing(u.chat.value.id) in HandleMessage(u, cfg, true, true, typingAllowed, answer)
  {
  }

  /**
   * Only a message through every guard reaches the thread lookup, and the
   * lookup is keyed by that message's chat and sender.
   */
  lemma OnlyGuardedMessagesReachThread(u: Update, cfg: Settings, respond: bool, rateOk: bool, typingAllowed: bool,
                                       answer: Result<string, string>, chatId: int, userId: int)
    ensures LookupThread(chatId, userId) in HandleMessage(u, cfg, respond, rateOk, typingAllowed, answer)
      <==> PassesGuards(u, cfg, respond, rateOk, typingAllowed) && chatId == u.chat.value.id && userId == u.user.value.id
  {
    var s := Screen(u, cfg, respond, rateOk, typingAllowed);
    assert forall i | 0 <= i < |s.effects| :: !s.effects[i].LookupThread? by {
      if Complete(u) {
        var chat, user := u.chat.value, u.user.value;
        assert s.effects[0].RecordChat?;
      }
    }
  }

  /** A message through every guard is answered exactly once, with the cleaned answer or the apology. */
  lemma PassedMessageAnsweredOnce(u: Update, cfg: Settings, respond: bool, rateOk: bool, typingAllowed: bool,
                                  answer: Result<string, string>)
    requires PassesGuards(u, cfg, respond, rateOk, typingAllowed)
    ensures var e := HandleMessage(u, cfg, respond, rateOk, typingAllowed, answer);
      e[|e| - 1] == Reply(AnswerReply(answer, cfg))
      && forall i | 0 <= i < |e| - 1 :: !e[i].Reply?
  {
    var s := Screen(u, cfg, respond, rateOk, typingAllowed);
    RepliesOnlyAtEnd(s.effects, [LookupThread(s.chatId, s.userId), Ask(s.text)], AnswerReply(answer, cfg));
  }

  lemma RepliesOnlyAtEnd(screened: seq<Effect>, asked: seq<Effect>, reply: string)
    requires forall i | 0 <= i < |screened| :: !screened[i].Reply?
    requires forall i | 0 <= i < |asked| :: !asked[i].Reply?
    ensures var e := screened + asked + [Reply(reply)];
      e[|e| - 1] == Reply(reply) && forall i | 0 <= i < |e| - 1 :: !e[i].Reply?
  {
    var e := screened + asked + [Reply(reply)];
    forall i | 0 <= i < |e| - 1 ensures !e[i].Reply? {
      if i < |screened| { assert e[i] == screened[i]; } else { assert e[i] == asked[i - |screened|]; }
    }
  }

  /**
   * As written, every message through the guards gets the apology and none
   * reaches a thread or the assistant; keyed by chat and user, the same
   * message is processed.
   */
  lemma ThreadLookupFailsAsWritten(u: Update, cfg: Settings, respond: bool, rateOk: bool, typingAllowed: bool,
                                   answer: Result<string, string>)
    requires PassesGuards(u, cfg, respond, rateOk, typingAllowed)
    ensures var e := HandleMessageAsWritten(u, cfg, respond, rateOk, typingAllowed);
      e[|e| - 1] == Reply(ProcessingErrorReply)
      && forall i | 0 <= i < |e| :: !e[i].LookupThread? && !e[i].Ask?
    ensures Ask(u.text) in HandleMessage(u, cfg, respond, rateOk, typingAllowed, answer)
  {
    var s := Screen(u, cfg, respond, rateOk, typingAllowed);
    assert forall i | 0 <= i < |s.effects| :: !s.effects[i].LookupThread? && !s.effects[i].Ask?;
  }

  /**
   * The handler acting on the chat directory and the thread registry keyed
   * by (chat id, user id); `stamp` is the current time as recorded in the
   * directory, `now` on the registry's clock, and `backendHas`, `createdId`
   * what the backend answers for the thread.
   */
  method Deliver(directory: ChatManager, registry: ThreadManager.ThreadRegistry<(int, int)>,
                 u: Update, cfg: Settings, respond: bool, rateOk: bool, typingAllowed: bool,
                 backendHas: bool, createdId: string, now: int, stamp: string, answer: Result<string, string>)
    returns (effects: seq<Effect>, threadId: Option<string>)
    requires directory.Valid() && registry.Valid()
    modifies directory, registry
    ensures directory.Valid() && registry.Valid()
    ensures effects == HandleMessage(u, cfg, respond, rateOk, typingAllowed, answer)
    ensures directory.chats == if Complete(u)
      then Touch(old(directory.chats), u.chat.value.id, KindName(u.chat.value.kind), ChatName(u.chat.value, u.user.value), stamp)
      else old(directory.chats)
    ensures threadId.Some? <==> PassesGuards(u, cfg, respond, rateOk, typingAllowed)
    ensures threadId.None? ==> registry.userThreads == old(registry.userThreads) && registry.heap == old(registry.heap)
    ensures threadId.Some? ==> registry.userThreads == old(registry.userThreads)[
      (u.chat.value.id, u.user.value.id) := ThreadManager.ThreadInfo(threadId.value, now, (u.chat.value.id, u.user.value.id))]
    ensures threadId.Some? ==> var key := (u.chat.value.id, u.user.value.id);
      && threadId.value == (if key in old(registry.userThreads) && backendHas
                            then old(registry.userThreads)[key].threadId else createdId)
      && multiset(registry.heap) == multiset(old(registry.heap)) + multiset{ThreadManager.ThreadInfo(threadId.value, now, key)}
    ensures old(registry.Covered()) ==> registry.Covered()
  {
    threadId := None;
    var s := Screen(u, cfg, respond, rateOk, typingAllowed);
    if Complete(u) {
      var chat, user := u.chat.value, u.user.value;
      directory.UpdateChat(chat.id, KindName(chat.kind), ChatName(chat, user), stamp);
    }
    match s {
      case Stop(e) =>
        effects := e;
      case Pass(e, chatId, userId, text) =>
        var id := registry.GetOrCreateThread((chatId, userId), backendHas, createdId, now);
        threadId := Some(id);
        effects := e + [LookupThread(chatId, userId), Ask(text), Reply(AnswerReply(answer, cfg))];
    }
  }

  // ---------------------------------------------------------------------
  // Waiting for the assistant run
  // ---------------------------------------------------------------------

  /**
   * One poll of the run: its completion time (zero or absent means not
   * completed), its status, its last error message if any, and the seconds
   * elapsed since polling began.
   */
  datatype Observation = Observation(completedAt: Option<int>, status: string, lastError: Option<string>, elapsed: int)

  /** How the wait ends. */
  datatype RunOutcome = Completed | Failed(message: string) | Cancelled | Expired | TimedOut

  /** What one poll decides: poll again, or stop with an outcome. */
  datatype Step = Continue | Done(outcome: RunOutcome)

  predicate IsCompleted(o: Observation) {
    o.completedAt.Some? && o.completedAt.value != 0
  }

  /** The decision on one poll: completion first, then the three failure statuses, then the clock. */
  function Classify(o: Observation, timeout: int): (s: Step)
    ensures IsCompleted(o) ==> s == Done(Completed)
    ensures s == Done(TimedOut) <==>
      !IsCompleted(o) && o.status != "failed" && o.status != "cancelled" && o.status != "expired" && o.elapsed > timeout
    ensures s == Continue <==>
      !IsCompleted(o) && o.status != "failed" && o.status != "cancelled" && o.status != "expired" && o.elapsed <= timeout
  {
    if IsCompleted(o) then Done(Completed)
    else if o.status == "failed" then Done(Failed(o.lastError.GetOr("Unknown error")))
    else if o.status == "cancelled" then Done(Cancelled)
    else if o.status == "expired" then Done(Expired)
    else if o.elapsed > timeout then Done(TimedOut)
    else Continue
  }

  /** The first decisive poll and its outcome, if any poll of `obs` decides. */
  function FirstDecision(obs: seq<Observation>, timeout: int): Option<(RunOutcome, nat)>
    decreases |obs|
  {
    if obs == [] then None
    else match Classify(obs[0], timeout)
      case Done(o) => Some((o, 0))
      case Continue =>
        match FirstDecision(obs[1..], timeout)
        case None => None
        case Some(d) => Some((d.0, d.1 + 1))
  }

  /** The message of the exception a failed wait raises. */
  function ErrorText(o: RunOutcome, timeout: int): string {
    match o
    case Completed => ""
    case Failed(m) => "Assistant run failed: " + m
    case Cancelled => "Assistant run was cancelled"
    case Expired => "Assistant run expired"
    case TimedOut => "Assistant timeout after " + IntToString(timeout) + " seconds"
  }

  /** What the processing step hands back: the latest message of the thread, or the error. */
  function Processed(o: RunOutcome, latest: string, timeout: int): Result<string, string> {
    if o.Completed? then Success(latest) else Failure(ErrorText(o, timeout))
  }

  /**
   * The polling loop over the observations it gets.  A failure of the
   * cancel request sent on timeout is swallowed, so it has no parameter
   * here.  With no decisive observation the wait is still going.
   */
  method AwaitRun(obs: seq<Observation>, timeout: int)
    returns (outcome: Option<RunOutcome>, polls: nat, cancelSent: bool)
    ensures match FirstDecision(obs, timeout)
      case None => outcome.None? && polls == |obs|
      case Some(d) => outcome == Some(d.0) && polls == d.1 + 1
    ensures cancelSent <==> outcome == Some(TimedOut)
  {
    outcome, polls, cancelSent := None, 0, false;
    while polls < |obs|
      invariant polls <= |obs|
      invariant FirstDecision(obs, timeout) == Shift(FirstDecision(obs[polls..], timeout), polls)
      invariant !cancelSent
    {
      var run := obs[polls];
      assert obs[polls..][1..] == obs[polls + 1..];
      polls := polls + 1;
      if IsCompleted(run) {
        outcome := Some(Completed);
        return;
      }
      if run.status == "failed" {
        outcome := Some(Failed(run.lastError.GetOr("Unknown error")));
        return;
      }
      if run.status == "cancelled" {
        outcome := Some(Cancelled);
        return;
      }
      if run.status == "expired" {
        outcome := Some(Expired);
        return;
      }
      if run.elapsed > timeout {
        // the cancel request is sent; whether it raises does not matter
        cancelSent := true;
        outcome := Some(TimedOut);
        return;
      }
    }
  }

  /** A decision found `k` polls later. */
  function Shift(d: Option<(RunOutcome, nat)>, k: nat): Option<(RunOutcome, nat)> {
    match d
    case None => None
    case Some(p) => Some((p.0, p.1 + k))
  }

  /**
   * The wait ends at the first decisive poll: every earlier one was still
   * running within the time limit.
   */
  lemma {:induction false} FirstDecisionIsFirst(obs: seq<Observation>, timeout: int)
    ensures match FirstDecision(obs, timeout)
      case None => forall j | 0 <= j < |obs| :: Classify(obs[j], timeout) == Continue
      case Some(d) =>
        d.1 < |obs| && Classify(obs[d.1], timeout) == Done(d.0)
        && forall j | 0 <= j < d.1 :: Classify(obs[j], timeout) == Continue
    decreases |obs|
  {
    if obs != [] {
      FirstDecisionIsFirst(obs[1..], timeout);
      forall j | 1 <= j < |obs| ensures obs[j] == obs[1..][j - 1] {
      }
    }
  }

  /** A timeout is raised only on a poll past the limit, and every poll before it was within the limit. */
  lemma TimeoutOnlyPastLimit(obs: seq<Observation>, timeout: int)
    requires FirstDecision(obs, timeout).Some? && FirstDecision(obs, timeout).value.0 == TimedOut
    ensures var k := FirstDecision(obs, timeout).value.1;
      k < |obs| && obs[k].elapsed > timeout && !IsCompleted(obs[k])
      && forall j | 0 <= j < k :: obs[j].elapsed <= timeout
  {
    FirstDecisionIsFirst(obs, timeout);
  }

  /** A completed run is a success whatever status it reports. */
  lemma CompletionBeatsStatus(o: Observation, timeout: int, status: string)
    requires IsCompleted(o)
    ensures Classify(o.(status := status), timeout) == Done(Completed)
  {
  }

  /** The four ways a wait fails raise four different messages. */
  lemma FailuresDistinct(m: string, timeout: int)
    ensures ErrorText(Failed(m), timeout) != ErrorText(Cancelled, timeout)
    ensures ErrorText(Failed(m), timeout) != ErrorText(Expired, timeout)
    ensures ErrorText(Cancelled, timeout) != ErrorText(Expired, timeout)
    ensures ErrorText(TimedOut, timeout) != ErrorText(Failed(m), timeout)
    ensures ErrorText(TimedOut, timeout) != ErrorText(Cancelled, timeout)
    ensures ErrorText(TimedOut, timeout) != ErrorText(Expired, timeout)
  {
    FailedMarks(m, timeout);
    UnfinishedMarks(Cancelled, timeout);
    UnfinishedMarks(Expired, timeout);
    TimedOutMarks(timeout);
  }

  /** The characters that tell a failure message apart from the others. */
  lemma FailedMarks(m: string, timeout: int)
    ensures |ErrorText(Failed(m), timeout)| > 14
    ensures ErrorText(Failed(m), timeout)[10] == 'r' && ErrorText(Failed(m), timeout)[14] == 'f'
  {
    var t := ErrorText(Failed(m), timeout);
    assert t == "Assistant run failed: " + m;
    assert t[..15] == "Assistant run f";
  }

  /** The same characters in the cancelled and expired messages. */
  lemma UnfinishedMarks(o: RunOutcome, timeout: int)
    requires o.Cancelled? || o.Expired?
    ensures |ErrorText(o, timeout)| > 14 && ErrorText(o, timeout)[10] == 'r'
    ensures ErrorText(o, timeout)[14] == if o.Cancelled? then 'w' else 'e'
  {
  }

  /** The timeout message differs from the other three at its eleventh character. */
  lemma TimedOutMarks(timeout: int)
    ensures |ErrorText(TimedOut, timeout)| > 10 && ErrorText(TimedOut, timeout)[10] == 't'
  {
    var t := ErrorText(TimedOut, timeout);
    assert t == "Assistant timeout after " + IntToString(timeout) + " seconds";
    assert t[..11] == "Assistant t";
  }

  /** A run that did not complete reaches the user as the apology. */
  lemma FailedRunGetsApology(o: RunOutcome, latest: string, timeout: int, cfg: Settings)
    requires !o.Completed?
    ensures AnswerReply(Processed(o, latest, timeout), cfg) == ProcessingErrorReply
  {
  }

  // ---------------------------------------------------------------------
  // /reset
  // ---------------------------------------------------------------------

  /** The /reset reply: whether a thread was deleted, or the error that stopped it. */
  function ResetReply(deleted: Result<bool, string>): (reply: string)
    ensures reply == ClearedReply <==> deleted == Success(true)
    ensures reply == NoDialogueReply <==> deleted == Success(false)
    ensures reply == ResetErrorReply <==> deleted.Failure?
  {
    match deleted
    case Success(true) => ClearedReply
    case Success(false) => NoDialogueReply
    case Failure(_) => ResetErrorReply
  }

  /**
   * /reset on the registry keyed by (chat id, user id): an update without a
   * chat or sender fails with the error reply; otherwise the pair's thread
   * is forgotten and the reply says whether there was one.
   */
  method ResetThread(registry: ThreadManager.ThreadRegistry<(int, int)>, chat: Option<Chat>, user: Option<User>)
    returns (reply: string)
    requires registry.Valid()
    modifies registry
    ensures registry.Valid()
    ensures chat.None? || user.None? ==> reply == ResetErrorReply && registry.userThreads == old(registry.userThreads)
    ensures chat.Some? && user.Some? ==>
      reply == ResetReply(Success((chat.value.id, user.value.id) in old(registry.userThreads)))
      && registry.userThreads == old(registry.userThreads) - {(chat.value.id, user.value.id)}
    ensures registry.heap == old(registry.heap)
    ensures old(registry.Covered()) ==> registry.Covered()
  {
    if chat.None? || user.None? {
      return ResetReply(Failure("AttributeError"));
    }
    var existed := registry.DeleteUserThread((chat.value.id, user.value.id));
    reply := ResetReply(Success(existed));
  }

  /**
   * /reset as written: `delete_user_thread` is called with the chat id and the
   * user id, but the registry's function takes the user id alone, so the call
   * raises a TypeError before anything is deleted.  Every update gets the
   * error reply, and the registry keyed by user is left as it was.
   */
  method ResetThreadAsWritten(registry: ThreadManager.ThreadRegistry<int>, chat: Option<Chat>, user: Option<User>)
    returns (reply: string)
    ensures reply == ResetErrorReply
    ensures reply != ClearedReply && reply != NoDialogueReply
  {
    if chat.None? || user.None? {
      return ResetReply(Failure("AttributeError"));
    }
    reply := ResetReply(Failure("TypeError"));
  }
}

=== FILE: pystr.dfy ===
/**
 * The Python string built-ins the bot relies on, stated over `seq<char>`:
 * `str.isspace`, `str.strip`, `str.split` with a one-character separator,
 * ASCII `str.lower`, slicing with clamped bounds, `int(str)` for an optional
 * sign followed by ASCII digits, and `str(int)`.
 */
module PyStr {
  import opened Wrappers

  /** The characters for which Python's `str.isspace` holds. */
  predicate IsSpace(c: char) {
    || c == '\t' || c == '\n' || c == '\U{0B}' || c == '\U{0C}' || c == '\r'
    || '\U{1C}' <= c <= '\U{1F}' || c == ' '
    || c == '\U{85}' || c == '\U{A0}' || c == '\U{1680}'
    || '\U{2000}' <= c <= '\U{200A}'
    || c == '\U{2028}' || c == '\U{2029}' || c == '\U{202F}' || c == '\U{205F}' || c == '\U{3000}'
  }

  predicate AllSpace(s: string) {
    forall i | 0 <= i < |s| :: IsSpace(s[i])
  }

  /** Neither end of `s` is whitespace. */
  predicate IsStripped(s: string) {
    s == [] || (!IsSpace(s[0]) && !IsSpace(s[|s| - 1]))
  }

  /** The number of whitespace characters `s` starts with. */
  function LeadingSpace(s: string): (n: nat)
    ensures n <= |s|
    ensures forall i | 0 <= i < n :: IsSpace(s[i])
    ensures n < |s| ==> !IsSpace(s[n])
  {
    if s != [] && IsSpace(s[0]) then 1 + LeadingSpace(s[1..]) else 0
  }

  /** The number of whitespace characters `s` ends with. */
  function TrailingSpace(s: string): (n: nat)
    ensures n <= |s|
    ensures forall i | |s| - n <= i < |s| :: IsSpace(s[i])
    ensures n < |s| ==> !IsSpace(s[|s| - 1 - n])
  {
    if s != [] && IsSpace(s[|s| - 1]) then 1 + TrailingSpace(s[..|s| - 1]) else 0
  }

  /** `str.lstrip()`: drops the leading whitespace, and only that. */
  function LStrip(s: string): string {
    s[LeadingSpace(s)..]
  }

  /** `str.rstrip()`: drops the trailing whitespace, and only that. */
  function RStrip(s: string): string {
    s[..|s| - TrailingSpace(s)]
  }

  /** `str.strip()`: what is left once leading and trailing whitespace are dropped. */
  function Strip(s: string): (r: string)
    ensures IsStripped(r)
    ensures |r| <= |s|
    ensures AllSpace(s) ==> r == []
  {
    RStrip(LStrip(s))
  }

  /** Stripping a string without whitespace at either end changes nothing. */
  lemma StripStripped(s: string)
    requires IsStripped(s)
    ensures Strip(s) == s
  {
  }

  /** Index of the first occurrence of `c` in `s`. */
  function IndexOf(s: string, c: char): (i: nat)
    requires c in s
    ensures i < |s| && s[i] == c && c !in s[..i]
  {
    if s[0] == c then 0 else 1 + IndexOf(s[1..], c)
  }

  /** `sep.join(pieces)`. */
  function Join(pieces: seq<string>, sep: char): string {
    if |pieces| == 0 then []
    else if |pieces| == 1 then pieces[0]
    else pieces[0] + [sep] + Join(pieces[1..], sep)
  }

  /**
   * `s.split(sep)` for a one-character separator: at least one piece, no piece
   * holds the separator, and joining the pieces gives `s` back.
   */
  function Split(s: string, sep: char): (r: seq<string>)
    ensures |r| >= 1
    ensures forall k | 0 <= k < |r| :: sep !in r[k]
    ensures Join(r, sep) == s
  {
    if sep !in s then [s]
    else
      var i := IndexOf(s, sep);
      var rest := Split(s[i + 1..], sep);
      assert Join([s[..i]] + rest, sep) == s[..i] + [sep] + Join(rest, sep) by {
        assert ([s[..i]] + rest)[1..] == rest;
      }
      [s[..i]] + rest
  }

  /** Splitting a join of separator-free pieces gives the pieces back. */
  lemma {:induction false} SplitJoin(pieces: seq<string>, sep: char)
    requires |pieces| >= 1
    requires forall k | 0 <= k < |pieces| :: sep !in pieces[k]
    ensures Split(Join(pieces, sep), sep) == pieces
  {
    if |pieces| > 1 {
      var s := Join(pieces, sep);
      var head := pieces[0];
      assert s == head + [sep] + Join(pieces[1..], sep);
      assert s[|head|] == sep && s[..|head|] == head;
      var i := IndexOf(s, sep);
      assert s[i + 1..] == Join(pieces[1..], sep);
      SplitJoin(pieces[1..], sep);
    }
  }

  /** ASCII lower-casing of one character. */
  function LowerChar(c: char): char {
    if 'A' <= c <= 'Z' then (c as int + 32) as char else c
  }

  /** `str.lower()` on ASCII letters; every other character is kept. */
  function Lower(s: string): string {
    seq(|s|, i requires 0 <= i < |s| => LowerChar(s[i]))
  }

  /** Python slice `s[start:end]` for non-negative bounds: both bounds are clamped to `|s|`. */
  function Slice(s: string, start: nat, end: nat): (r: string)
    ensures |r| <= |s|
    ensures start + |r| <= |s| ==> r == s[start..start + |r|]
    ensures end <= |s| && start <= end ==> |r| == end - start
  {
    var a := if start < |s| then start else |s|;
    var b := if end < |s| then end else |s|;
    if a <= b then s[a..b] else []
  }

  predicate IsDigit(c: char) {
    '0' <= c <= '9'
  }

  predicate AllDigits(s: string) {
    forall i | 0 <= i < |s| :: IsDigit(s[i])
  }

  function DigitValue(c: char): nat
    requires IsDigit(c)
  {
    c as int - '0' as int
  }

  function DigitChar(d: nat): char
    requires d < 10
  {
    ('0' as int + d) as char
  }

  /** The value of a string of decimal digits, most significant first. */
  function DigitsValue(s: string): nat
    requires AllDigits(s)
  {
    if s == [] then 0 else 10 * DigitsValue(s[..|s| - 1]) + DigitValue(s[|s| - 1])
  }

  /** `int(t)` for an already stripped `t`: an optional sign, then one or more digits. */
  function ParseStrippedInt(t: string): Option<int> {
    if |t| > 0 && (t[0] == '-' || t[0] == '+') then
      var digits := t[1..];
      if digits != [] && AllDigits(digits) then
        var magnitude: int := DigitsValue(digits);
        Some(if t[0] == '-' then -magnitude else magnitude)
      else None
    else if t != [] && AllDigits(t) then Some(DigitsValue(t))
    else None
  }

  /** `int(s)`: surrounding whitespace is ignored; None stands for the ValueError. */
  function ParseInt(s: string): Option<int> {
    ParseStrippedInt(Strip(s))
  }

  /** The decimal digits of `n` without leading zeros. */
  function NatToDigits(n: nat): (r: string)
    ensures r != [] && AllDigits(r)
    ensures DigitsValue(r) == n
    ensures |r| > 1 ==> r[0] != '0'
  {
    if n < 10 then [DigitChar(n)]
    else
      var r := NatToDigits(n / 10) + [DigitChar(n % 10)];
      assert r[..|r| - 1] == NatToDigits(n / 10);
      r
  }

  /** `str(n)`. */
  function IntToString(n: int): string {
    if n < 0 then "-" + NatToDigits(-n) else NatToDigits(n)
  }

  /** `int(str(n)) == n`. */
  lemma ParseIntToString(n: int)
    ensures ParseInt(IntToString(n)) == Some(n)
  {
    var s := IntToString(n);
    var d := NatToDigits(if n < 0 then -n else n);
    assert !IsSpace(s[0]) && !IsSpace(s[|s| - 1]);
    StripStripped(s);
    if n < 0 {
      assert s[1..] == d;
    }
  }

  /** Distinct integers print differently, so `str` can key a map by integer. */
  lemma IntToStringInjective(a: int, b: int)
    requires IntToString(a) == IntToString(b)
    ensures a == b
  {
    ParseIntToString(a);
    ParseIntToString(b);
  }
}

=== FILE: thread_manager.dfy ===
/**
 * The thread registry of the bot: a dictionary from a user key to the
 * ThreadInfo of that user's assistant thread, and a binary min-heap of
 * ThreadInfo ordered by last access, used to find idle threads.
 *
 * Every access appends a fresh node to the heap and overwrites the dictionary
 * entry, so the heap also holds stale nodes of earlier accesses.  The sweep
 * pops expired heap heads and deletes the dictionary entry of the popped
 * node's user without checking that the node is that user's current record.
 *
 * The key type `K` is a parameter: thread_manager.py keys by user id, the
 * handlers call the registry with the pair (chat id, user id).  Times are whole
 * seconds on an integer clock; the lifetime is a whole number of hours.  The
 * assistant backend is not modelled: what its calls return is given to each
 * method as a parameter.
 */
module ThreadManager {

  /** One record: the backend thread id, the time of the access, the key it belongs to. */
  datatype ThreadInfo<K> = ThreadInfo(threadId: string, lastAccess: int, userId: K)

  /** Records are ordered by last access alone. */
  predicate Before<K>(a: ThreadInfo<K>, b: ThreadInfo<K>) {
    a.lastAccess < b.lastAccess
  }

  /** The heap order of Python's heapq: no node is older than its parent. */
  ghost predicate IsMinHeap<K>(h: seq<ThreadInfo<K>>) {
    forall p, c :: 0 <= p < |h| && 0 < c < |h| && p == (c - 1) / 2 ==> h[p].lastAccess <= h[c].lastAccess
  }

  /** The head of a min-heap is its oldest node. */
  lemma {:induction false} HeadIsOldest<K>(h: seq<ThreadInfo<K>>, i: nat)
    requires IsMinHeap(h) && i < |h|
    ensures h[0].lastAccess <= h[i].lastAccess
    decreases i
  {
    if i > 0 {
      HeadIsOldest(h, (i - 1) / 2);
    }
  }

  /** The heap order holds at every parent/child pair except where `k` is the child. */
  ghost predicate HeapExceptChild<K>(r: seq<ThreadInfo<K>>, k: nat) {
    forall p, c :: 0 <= p < |r| && 0 < c < |r| && p == (c - 1) / 2 && c != k ==> r[p].lastAccess <= r[c].lastAccess
  }

  /** The heap order holds at every parent/child pair except where `k` is the parent. */
  ghost predicate HeapExceptParent<K>(r: seq<ThreadInfo<K>>, k: nat) {
    forall p, c :: 0 <= p < |r| && 0 < c < |r| && p == (c - 1) / 2 && p != k ==> r[p].lastAccess <= r[c].lastAccess
  }

  /** The parent of `k`, if any, is no younger than the children of `k`. */
  ghost predicate GrandparentBound<K>(r: seq<ThreadInfo<K>>, k: nat) {
    0 < k < |r| ==> forall c :: 0 < c < |r| && (c - 1) / 2 == k ==> r[(k - 1) / 2].lastAccess <= r[c].lastAccess
  }

  function Swap<K>(r: seq<ThreadInfo<K>>, i: nat, j: nat): (r': seq<ThreadInfo<K>>)
    requires i < |r| && j < |r|
    ensures |r'| == |r| && multiset(r') == multiset(r)
  {
    r[i := r[j]][j := r[i]]
  }

  /** One step of moving a node up keeps the order everywhere but at its new place. */
  lemma SiftUpStep<K>(r: seq<ThreadInfo<K>>, k: nat)
    requires 0 < k < |r|
    requires HeapExceptChild(r, k) && GrandparentBound(r, k)
    requires r[k].lastAccess < r[(k - 1) / 2].lastAccess
    ensures HeapExceptChild(Swap(r, k, (k - 1) / 2), (k - 1) / 2)
    ensures GrandparentBound(Swap(r, k, (k - 1) / 2), (k - 1) / 2)
  {
    var p := (k - 1) / 2;
    var r' := Swap(r, k, p);
    forall q, c | 0 <= q < |r'| && 0 < c < |r'| && q == (c - 1) / 2 && c != p
      ensures r'[q].lastAccess <= r'[c].lastAccess
    {
      if c == k {
      } else if q == k {
        assert r'[c] == r[c];
      } else if q == p {
        assert r'[c] == r[c];
        assert r[p].lastAccess <= r[c].lastAccess;
      } else {
        assert r'[q] == r[q] && r'[c] == r[c];
      }
    }
    if p > 0 {
      var g := (p - 1) / 2;
      assert r[g].lastAccess <= r[p].lastAccess;
      forall c | 0 < c < |r'| && (c - 1) / 2 == p
        ensures r'[g].lastAccess <= r'[c].lastAccess
      {
        if c != k {
          assert r[p].lastAccess <= r[c].lastAccess;
        }
      }
    }
  }

  /** One step of moving a node down keeps the order everywhere but below its new place. */
  lemma SiftDownStep<K>(r: seq<ThreadInfo<K>>, k: nat, c: nat)
    requires 0 <= k < c < |r| && (c - 1) / 2 == k
    requires HeapExceptParent(r, k) && GrandparentBound(r, k)
    requires forall s :: 0 < s < |r| && (s - 1) / 2 == k ==> r[c].lastAccess <= r[s].lastAccess
    requires r[c].lastAccess < r[k].lastAccess
    ensures HeapExceptParent(Swap(r, k, c), c)
    ensures GrandparentBound(Swap(r, k, c), c)
  {
    var r' := Swap(r, k, c);
    forall q, d | 0 <= q < |r'| && 0 < d < |r'| && q == (d - 1) / 2 && q != c
      ensures r'[q].lastAccess <= r'[d].lastAccess
    {
      if q == k {
        if d != c {
          assert r'[d] == r[d];
        }
      } else if d == k {
        assert r'[q] == r[q];
      } else {
        assert r'[q] == r[q] && r'[d] == r[d];
      }
    }
    forall d | 0 < d < |r'| && (d - 1) / 2 == c
      ensures r'[k].lastAccess <= r'[d].lastAccess
    {
      assert r'[d] == r[d];
      assert r[c].lastAccess <= r[d].lastAccess;
    }
  }

  /** The child `heappop` picks is the oldest child of `k`. */
  lemma YoungestChild<K>(r: seq<ThreadInfo<K>>, k: nat, c: nat)
    requires c < |r| && (c == 2 * k + 1 || c == 2 * k + 2)
    requires c == 2 * k + 1 ==> c + 1 >= |r| || r[c].lastAccess <= r[c + 1].lastAccess
    requires c == 2 * k + 2 ==> r[c].lastAccess < r[c - 1].lastAccess
    ensures (c - 1) / 2 == k
    ensures forall s :: 0 < s < |r| && (s - 1) / 2 == k ==> r[c].lastAccess <= r[s].lastAccess
  {
    forall s | 0 < s < |r| && (s - 1) / 2 == k
      ensures r[c].lastAccess <= r[s].lastAccess
    {
      assert s == 2 * k + 1 || s == 2 * k + 2;
    }
  }

  /** Moving a node down may stop once it is no younger than its children. */
  lemma SiftDownDone<K>(r: seq<ThreadInfo<K>>, k: nat)
    requires k < |r|
    requires HeapExceptParent(r, k)
    requires forall c :: 0 < c < |r| && (c - 1) / 2 == k ==> r[k].lastAccess <= r[c].lastAccess
    ensures IsMinHeap(r)
  {
  }

  /** `heapq.heappush`: append, then move the new node up past every younger parent. */
  method HeapPush<K>(h: seq<ThreadInfo<K>>, x: ThreadInfo<K>) returns (r: seq<ThreadInfo<K>>)
    requires IsMinHeap(h)
    ensures IsMinHeap(r)
    ensures multiset(r) == multiset(h) + multiset{x}
  {
    r := h + [x];
    var k := |h|;
    while k > 0 && Before(r[k], r[(k - 1) / 2])
      invariant 0 <= k < |r| == |h| + 1
      invariant multiset(r) == multiset(h) + multiset{x}
      invariant HeapExceptChild(r, k) && GrandparentBound(r, k)
      decreases k
    {
      SiftUpStep(r, k);
      var p := (k - 1) / 2;
      r := Swap(r, k, p);
      k := p;
    }
  }

  /** The last node moved to the head's place, as `heappop` does before moving it down. */
  function LastToHead<K>(h: seq<ThreadInfo<K>>): (r: seq<ThreadInfo<K>>)
    requires |h| > 1
    ensures |r| == |h| - 1
  {
    h[..|h| - 1][0 := h[|h| - 1]]
  }

  lemma LastToHeadProps<K>(h: seq<ThreadInfo<K>>)
    requires |h| > 1 && IsMinHeap(h)
    ensures multiset(LastToHead(h)) + multiset{h[0]} == multiset(h)
    ensures HeapExceptParent(LastToHead(h), 0)
  {
    var r := LastToHead(h);
    assert h == [h[0]] + h[1..|h| - 1] + [h[|h| - 1]];
    assert r == [h[|h| - 1]] + h[1..|h| - 1];
    forall q, d | 0 <= q < |r| && 0 < d < |r| && q == (d - 1) / 2 && q != 0
      ensures r[q].lastAccess <= r[d].lastAccess
    {
      assert r[q] == h[q] && r[d] == h[d];
    }
  }

  /** `heapq.heappop` on a non-empty heap: remove and return the head. */
  method HeapPop<K>(h: seq<ThreadInfo<K>>) returns (top: ThreadInfo<K>, r: seq<ThreadInfo<K>>)
    requires IsMinHeap(h) && |h| > 0
    ensures top == h[0]
    ensures IsMinHeap(r) && |r| == |h| - 1
    ensures multiset(r) + multiset{top} == multiset(h)
  {
    top := h[0];
    if |h| == 1 {
      r := [];
      return;
    }
    r := LastToHead(h);
    LastToHeadProps(h);
    var k := 0;
    while 2 * k + 1 < |r|
      invariant SiftDownInv(h, top, r, k)
      decreases |r| - k
    {
      var c := OlderChild(r, k);
      SiftDownMove(h, top, r, k);
      if !Before(r[c], r[k]) {
        return;
      }
      r := Swap(r, k, c);
      k := c;
    }
    SiftDownLeaf(h, top, r, k);
  }

  /** The child of `k` that the sift-down compares with: the older one, the left on a tie. */
  function OlderChild<K>(r: seq<ThreadInfo<K>>, k: nat): (c: nat)
    requires 2 * k + 1 < |r|
    ensures c < |r| && (c == 2 * k + 1 || c == 2 * k + 2)
    ensures c == 2 * k + 1 ==> c + 1 >= |r| || r[c].lastAccess <= r[c + 1].lastAccess
    ensures c == 2 * k + 2 ==> r[c].lastAccess < r[c - 1].lastAccess
  {
    if 2 * k + 2 < |r| && Before(r[2 * k + 2], r[2 * k + 1]) then 2 * k + 2 else 2 * k + 1
  }

  /** The bookkeeping of `heappop`'s sift-down with the moving node at `k`. */
  ghost predicate SiftDownInv<K>(h: seq<ThreadInfo<K>>, top: ThreadInfo<K>, r: seq<ThreadInfo<K>>, k: nat) {
    && k < |r| == |h| - 1
    && multiset(r) + multiset{top} == multiset(h)
    && HeapExceptParent(r, k) && GrandparentBound(r, k)
  }

  /**
   * Comparing the moving node with its oldest child `c`: either the heap is
   * whole, or swapping the two keeps the bookkeeping one level down.
   */
  lemma SiftDownMove<K>(h: seq<ThreadInfo<K>>, top: ThreadInfo<K>, r: seq<ThreadInfo<K>>, k: nat)
    requires SiftDownInv(h, top, r, k) && 2 * k + 1 < |r|
    ensures var c := OlderChild(r, k);
      && (Before(r[c], r[k]) ==> SiftDownInv(h, top, Swap(r, k, c), c))
      && (!Before(r[c], r[k]) ==> IsMinHeap(r))
  {
    var c := OlderChild(r, k);
    YoungestChild(r, k, c);
    if r[c].lastAccess < r[k].lastAccess {
      SiftDownStep(r, k, c);
    } else {
      SiftDownDone(r, k);
    }
  }

  /** A moving node without children leaves a whole heap. */
  lemma SiftDownLeaf<K>(h: seq<ThreadInfo<K>>, top: ThreadInfo<K>, r: seq<ThreadInfo<K>>, k: nat)
    requires SiftDownInv(h, top, r, k) && 2 * k + 1 >= |r|
    ensures IsMinHeap(r)
  {
    SiftDownDone(r, k);
  }

  /** A node has outlived the lifetime: `now - last_access > timedelta(hours=lifetime)`. */
  predicate Expired<K>(x: ThreadInfo<K>, now: int, lifetimeHours: int) {
    now - x.lastAccess > lifetimeHours * 3600
  }

  /** The keys of every expired node in the heap, stale or not. */
  ghost function ExpiredKeys<K>(h: seq<ThreadInfo<K>>, now: int, lifetimeHours: int): set<K> {
    set x | x in h && Expired(x, now, lifetimeHours) :: x.userId
  }

  /** Every record is filed under its own key. */
  ghost predicate KeysMatch<K>(users: map<K, ThreadInfo<K>>) {
    forall u :: u in users ==> users[u].userId == u
  }

  /** Every record of the dictionary is also a node of the heap. */
  ghost predicate DictInHeap<K>(h: seq<ThreadInfo<K>>, users: map<K, ThreadInfo<K>>) {
    forall u :: u in users ==> users[u] in h
  }

  class ThreadRegistry<K(==)> {
    /** `thread_heap` */
    var heap: seq<ThreadInfo<K>>
    /** `user_threads` */
    var userThreads: map<K, ThreadInfo<K>>

    ghost predicate Valid()
      reads this
    {
      IsMinHeap(heap) && KeysMatch(userThreads)
    }

    /** Invariant I1: the dictionary is covered by the heap. */
    ghost predicate Covered()
      reads this
    {
      DictInHeap(heap, userThreads)
    }

    /** The empty module-level structures. */
    constructor ()
      ensures Valid() && Covered()
      ensures heap == [] && userThreads == map[]
    {
      heap := [];
      userThreads := map[];
    }

    /** `update_thread_access`: overwrite the key's record and push it as one new heap node. */
    method UpdateThreadAccess(user: K, threadId: string, now: int)
      requires Valid()
      modifies this
      ensures Valid()
      ensures userThreads == old(userThreads)[user := ThreadInfo(threadId, now, user)]
      ensures multiset(heap) == multiset(old(heap)) + multiset{ThreadInfo(threadId, now, user)}
      ensures old(Covered()) ==> Covered()
    {
      var info := ThreadInfo(threadId, now, user);
      userThreads := userThreads[user := info];
      heap := HeapPush(heap, info);
      if old(Covered()) {
        forall u | u in userThreads ensures userThreads[u] in heap {
          if u == user {
            assert info in multiset(heap);
          } else {
            assert old(userThreads)[u] in old(heap);
            assert old(userThreads)[u] in multiset(old(heap));
            assert userThreads[u] in multiset(heap);
          }
        }
      }
    }

    /**
     * `get_or_create_thread`: `backendHas` is what the existence check answers
     * for the stored thread id, `createdId` what thread creation returns.
     */
    method GetOrCreateThread(user: K, backendHas: bool, createdId: string, now: int)
      returns (threadId: string)
      requires Valid()
      modifies this
      ensures Valid()
      ensures threadId == if user in old(userThreads) && backendHas
                          then old(userThreads)[user].threadId else createdId
      ensures userThreads == old(userThreads)[user := ThreadInfo(threadId, now, user)]
      ensures multiset(heap) == multiset(old(heap)) + multiset{ThreadInfo(threadId, now, user)}
      ensures old(Covered()) ==> Covered()
    {
      if user !in userThreads || !backendHas {
        threadId := createdId;
      } else {
        threadId := userThreads[user].threadId;
      }
      UpdateThreadAccess(user, threadId, now);
    }

    /**
     * `delete_user_thread`: whatever the backend delete does, the key's record
     * is gone afterwards; the heap keeps its nodes.
     */
    method DeleteUserThread(user: K) returns (existed: bool)
      requires Valid()
      modifies this
      ensures Valid()
      ensures existed == (user in old(userThreads))
      ensures userThreads == old(userThreads) - {user}
      ensures heap == old(heap)
      ensures old(Covered()) ==> Covered()
    {
      existed := user in userThreads;
      if !existed {
        return;
      }
      userThreads := userThreads - {user};
    }

    /**
     * `delete_all_threads`: every record whose backend delete succeeds is
     * dropped, the others stay, and the heap is cleared.  `failing` holds the
     * keys whose backend delete raises.
     */
    method DeleteAllThreads(failing: set<K>)
      requires Valid()
      modifies this
      ensures Valid()
      ensures heap == []
      ensures userThreads == map u | u in old(userThreads) && u in failing :: old(userThreads)[u]
    {
      var pending := userThreads.Keys;
      while pending != {}
        invariant pending <= old(userThreads).Keys
        invariant KeysMatch(userThreads) && IsMinHeap(heap)
        invariant userThreads == map u | u in old(userThreads) && (u in pending || u in failing) :: old(userThreads)[u]
        decreases pending
      {
        var u :| u in pending;
        if u !in failing {
          userThreads := userThreads - {u};
        }
        pending := pending - {u};
      }
      heap := [];
    }

    /**
     * One sweep of `cleanup_old_threads`: pop heap heads while they are
     * expired, and for each popped node drop the record of its key, whether or
     * not that record is the node.  A node aged exactly the lifetime stays.
     * The backend is asked to delete the thread of every popped node.
     */
    method CleanupOldThreads(now: int, lifetimeHours: int) returns (evicted: seq<ThreadInfo<K>>)
      requires Valid()
      modifies this
      ensures Valid()
      ensures multiset(evicted) + multiset(heap) == multiset(old(heap))
      ensures forall i | 0 <= i < |evicted| :: Expired(evicted[i], now, lifetimeHours)
      ensures forall x | x in heap :: !Expired(x, now, lifetimeHours)
      ensures SortedByAccess(evicted)
      ensures userThreads == old(userThreads) - ExpiredKeys(old(heap), now, lifetimeHours)
      ensures old(Covered()) ==> Covered()
    {
      evicted, heap, userThreads := SweepExpired(heap, userThreads, now, lifetimeHours);
    }

    /**
     * The sweep as the registry's design intends it: a popped node removes
     * its key's record only when it IS that record, so a stale node of an
     * earlier access leaves a live record alone, and only a popped node that
     * is its key's record has its thread deleted on the backend: `dropped`
     * lists those records, one per key.  With the dictionary covered by the
     * heap, exactly the records idle longer than the lifetime go.
     */
    method CleanupOldThreadsValidated(now: int, lifetimeHours: int)
      returns (evicted: seq<ThreadInfo<K>>, dropped: seq<ThreadInfo<K>>)
      requires Valid() && Covered()
      modifies this
      ensures Valid() && Covered()
      ensures multiset(evicted) + multiset(heap) == multiset(old(heap))
      ensures forall x | x in heap :: !Expired(x, now, lifetimeHours)
      ensures userThreads == map u | u in old(userThreads) && !Expired(old(userThreads)[u], now, lifetimeHours)
                                   :: old(userThreads)[u]
      ensures forall i | 0 <= i < |dropped| ::
        dropped[i].userId in old(userThreads) && old(userThreads)[dropped[i].userId] == dropped[i]
        && Expired(dropped[i], now, lifetimeHours)
      ensures KeysOf(dropped) == ExpiredUsers(old(userThreads), now, lifetimeHours)
      ensures forall i, j | 0 <= i < j < |dropped| :: dropped[i].userId != dropped[j].userId
    {
      evicted, dropped, heap, userThreads := SweepExpiredValidated(heap, userThreads, now, lifetimeHours);
    }
  }

  /** A sweep over one expired and one fresh node evicts exactly the expired one. */
  lemma SweepOfTwo<K>(evicted: seq<ThreadInfo<K>>, h: seq<ThreadInfo<K>>, gone: ThreadInfo<K>, kept: ThreadInfo<K>, now: int, lifetimeHours: int)
    requires Expired(gone, now, lifetimeHours) && !Expired(kept, now, lifetimeHours)
    requires multiset(evicted) + multiset(h) == multiset{gone, kept}
    requires forall i | 0 <= i < |evicted| :: Expired(evicted[i], now, lifetimeHours)
    requires forall x | x in h :: !Expired(x, now, lifetimeHours)
    ensures evicted == [gone] && kept in h
  {
    assert kept !in evicted;
    assert gone !in h;
    assert multiset(evicted) == multiset{gone};
    assert |evicted| == |multiset(evicted)| == 1;
    assert evicted[0] in multiset(evicted);
  }

  /**
   * Registry scenario: key 7 gets thread "thread_a" at time 0 and reuses it
   * at time 86400; a sweep at 86401 with a 24-hour lifetime pops the first
   * (stale) node, deletes "thread_a" and drops key 7, whose record was last
   * used one second earlier.  The validated sweep keeps that record and
   * deletes no thread.
   */
  method StaleNodeEvictsLiveRecord()
    returns (evictedThread: string, keptAsWritten: bool, keptValidated: bool, deletedValidated: nat)
    ensures evictedThread == "thread_a"
    ensures !keptAsWritten && keptValidated
    ensures deletedValidated == 0
  {
    var reg := new ThreadRegistry<int>();
    var first := reg.GetOrCreateThread(7, false, "thread_a", 0);
    var second := reg.GetOrCreateThread(7, true, "thread_b", 86400);
    assert first == second == "thread_a";
    var stale, live := ThreadInfo("thread_a", 0, 7), ThreadInfo("thread_a", 86400, 7);
    assert multiset(reg.heap) == multiset{stale, live};
    assert reg.Covered() && reg.userThreads == map[7 := live];

    var other := new ThreadRegistry<int>();
    other.heap, other.userThreads := reg.heap, reg.userThreads;

    var evicted := reg.CleanupOldThreads(86401, 24);
    SweepOfTwo(evicted, reg.heap, stale, live, 86401, 24);
    evictedThread := evicted[0].threadId;
    keptAsWritten := 7 in reg.userThreads;

    var _, dropped := other.CleanupOldThreadsValidated(86401, 24);
    keptValidated := 7 in other.userThreads;
    NoneDropped(dropped, map[7 := live], 86401, 24);
    deletedValidated := |dropped|;
  }

  /**
   * The loop of one sweep, over the heap and dictionary it is given: returns
   * the popped nodes in the order they were popped, the heap left, and the
   * dictionary left.
   */
  method SweepExpired<K>(heap: seq<ThreadInfo<K>>, userThreads: map<K, ThreadInfo<K>>, now: int, lifetimeHours: int)
    returns (evicted: seq<ThreadInfo<K>>, h: seq<ThreadInfo<K>>, users: map<K, ThreadInfo<K>>)
    requires IsMinHeap(heap) && KeysMatch(userThreads)
    ensures IsMinHeap(h) && KeysMatch(users)
    ensures multiset(evicted) + multiset(h) == multiset(heap)
    ensures forall i | 0 <= i < |evicted| :: Expired(evicted[i], now, lifetimeHours)
    ensures forall x | x in h :: !Expired(x, now, lifetimeHours)
    ensures SortedByAccess(evicted)
    ensures users == userThreads - ExpiredKeys(heap, now, lifetimeHours)
    ensures DictInHeap(heap, userThreads) ==> DictInHeap(h, users)
  {
    h, users := heap, userThreads;
    evicted := [];
    SweepStart(heap, userThreads, now, lifetimeHours);
    while h != [] && Expired(h[0], now, lifetimeHours)
      invariant SweepInv(heap, userThreads, h, evicted, users, now, lifetimeHours)
      decreases |h|
    {
      var oldest, rest := HeapPop(h);
      SweepStep(heap, userThreads, h, evicted, users, oldest, rest, now, lifetimeHours);
      h := rest;
      evicted := evicted + [oldest];
      if oldest.userId in users {
        users := users - {oldest.userId};
      }
    }
    SweepFinish(heap, userThreads, h, evicted, users, now, lifetimeHours);
  }

  /**
   * The loop of the validated sweep: like SweepExpired, but a popped node
   * drops its key's record only if the record equals the node.
   */
  method SweepExpiredValidated<K>(heap: seq<ThreadInfo<K>>, userThreads: map<K, ThreadInfo<K>>, now: int, lifetimeHours: int)
    returns (evicted: seq<ThreadInfo<K>>, dropped: seq<ThreadInfo<K>>, h: seq<ThreadInfo<K>>, users: map<K, ThreadInfo<K>>)
    requires IsMinHeap(heap) && KeysMatch(userThreads) && DictInHeap(heap, userThreads)
    ensures IsMinHeap(h) && KeysMatch(users) && DictInHeap(h, users)
    ensures multiset(evicted) + multiset(h) == multiset(heap)
    ensures forall x | x in h :: !Expired(x, now, lifetimeHours)
    ensures users == map u | u in userThreads && !Expired(userThreads[u], now, lifetimeHours) :: userThreads[u]
    ensures forall i | 0 <= i < |dropped| ::
      dropped[i].userId in userThreads && userThreads[dropped[i].userId] == dropped[i]
      && Expired(dropped[i], now, lifetimeHours)
    ensures KeysOf(dropped) == ExpiredUsers(userThreads, now, lifetimeHours)
    ensures forall i, j | 0 <= i < j < |dropped| :: dropped[i].userId != dropped[j].userId
  {
    h, users := heap, userThreads;
    evicted, dropped := [], [];
    ValidatedStart(heap, userThreads, now, lifetimeHours);
    DroppedStart(userThreads);
    while h != [] && Expired(h[0], now, lifetimeHours)
      invariant ValidatedInv(heap, userThreads, h, evicted, users, now, lifetimeHours)
      invariant DroppedInv(userThreads, users, dropped)
      decreases |h|
    {
      var oldest, rest := HeapPop(h);
      ValidatedStep(heap, userThreads, h, evicted, users, oldest, rest, now, lifetimeHours);
      if oldest.userId in users && users[oldest.userId] == oldest {
        DroppedStep(userThreads, users, dropped, evicted, oldest);
        users := users - {oldest.userId};
        dropped := dropped + [oldest];
      }
      h := rest;
      evicted := evicted + [oldest];
    }
    ValidatedFinish(heap, userThreads, h, evicted, users, now, lifetimeHours);
    DroppedFinish(userThreads, users, dropped, now, lifetimeHours);
  }

  /**
   * The bookkeeping of the sweep after some pops: the popped nodes, all
   * expired and in order of age, and the heap left make up the heap swept;
   * the dictionary has lost exactly the keys of popped nodes.
   */
  ghost predicate SweepInv<K>(heap: seq<ThreadInfo<K>>, userThreads: map<K, ThreadInfo<K>>,
                              h: seq<ThreadInfo<K>>, evicted: seq<ThreadInfo<K>>, users: map<K, ThreadInfo<K>>,
                              now: int, lifetimeHours: int)
  {
    && IsMinHeap(h) && KeysMatch(users)
    && multiset(evicted) + multiset(h) == multiset(heap)
    && (forall i | 0 <= i < |evicted| :: Expired(evicted[i], now, lifetimeHours))
    && SortedByAccess(evicted)
    && (evicted != [] ==> NoneOlderThan(evicted[|evicted| - 1], h))
    && users == userThreads - KeysOf(evicted)
  }

  lemma SweepStart<K>(heap: seq<ThreadInfo<K>>, userThreads: map<K, ThreadInfo<K>>, now: int, lifetimeHours: int)
    requires IsMinHeap(heap) && KeysMatch(userThreads)
    ensures SweepInv(heap, userThreads, heap, [], userThreads, now, lifetimeHours)
  {
    assert KeysOf<K>([]) == {};
    assert userThreads - {} == userThreads;
  }

  /** What one pop of the sweep does to the loop's bookkeeping. */
  lemma SweepStep<K>(heap: seq<ThreadInfo<K>>, userThreads: map<K, ThreadInfo<K>>,
                     h: seq<ThreadInfo<K>>, evicted: seq<ThreadInfo<K>>, users: map<K, ThreadInfo<K>>,
                     oldest: ThreadInfo<K>, rest: seq<ThreadInfo<K>>, now: int, lifetimeHours: int)
    requires SweepInv(heap, userThreads, h, evicted, users, now, lifetimeHours)
    requires |h| > 0 && oldest == h[0] && Expired(oldest, now, lifetimeHours)
    requires IsMinHeap(rest) && multiset(rest) + multiset{oldest} == multiset(h)
    ensures SweepInv(heap, userThreads, rest, evicted + [oldest],
                     if oldest.userId in users then users - {oldest.userId} else users, now, lifetimeHours)
  {
    PopYieldsOldest(h, oldest, rest);
    SortedAppend(evicted, oldest);
    assert multiset(evicted + [oldest]) == multiset(evicted) + multiset{oldest};
    ExpiredAppend(evicted, oldest, now, lifetimeHours);
    EvictKey(userThreads, evicted, users, oldest);
  }

  lemma ExpiredAppend<K>(evicted: seq<ThreadInfo<K>>, oldest: ThreadInfo<K>, now: int, lifetimeHours: int)
    requires forall i | 0 <= i < |evicted| :: Expired(evicted[i], now, lifetimeHours)
    requires Expired(oldest, now, lifetimeHours)
    ensures forall i | 0 <= i < |evicted + [oldest]| :: Expired((evicted + [oldest])[i], now, lifetimeHours)
  {
    var e := evicted + [oldest];
    forall i | 0 <= i < |e| ensures Expired(e[i], now, lifetimeHours) {
      if i < |evicted| {
        assert e[i] == evicted[i];
      }
    }
  }

  /** Dropping the popped node's key keeps the dictionary equal to the keys not yet evicted. */
  lemma EvictKey<K>(userThreads: map<K, ThreadInfo<K>>, evicted: seq<ThreadInfo<K>>,
                    users: map<K, ThreadInfo<K>>, oldest: ThreadInfo<K>)
    requires KeysMatch(users) && users == userThreads - KeysOf(evicted)
    ensures var users' := if oldest.userId in users then users - {oldest.userId} else users;
      KeysMatch(users') && users' == userThreads - KeysOf(evicted + [oldest])
  {
    KeysOfAppend(evicted, oldest);
    var users' := users - {oldest.userId};
    assert users' == userThreads - KeysOf(evicted + [oldest]);
    if oldest.userId !in users {
      assert users' == users;
    }
  }

  /** When the loop stops, the bookkeeping gives the sweep's promises. */
  lemma SweepFinish<K>(heap: seq<ThreadInfo<K>>, userThreads: map<K, ThreadInfo<K>>,
                       h: seq<ThreadInfo<K>>, evicted: seq<ThreadInfo<K>>, users: map<K, ThreadInfo<K>>,
                       now: int, lifetimeHours: int)
    requires SweepInv(heap, userThreads, h, evicted, users, now, lifetimeHours) && KeysMatch(userThreads)
    requires h == [] || !Expired(h[0], now, lifetimeHours)
    ensures IsMinHeap(h) && KeysMatch(users)
    ensures multiset(evicted) + multiset(h) == multiset(heap)
    ensures forall i | 0 <= i < |evicted| :: Expired(evicted[i], now, lifetimeHours)
    ensures forall x | x in h :: !Expired(x, now, lifetimeHours)
    ensures SortedByAccess(evicted)
    ensures users == userThreads - ExpiredKeys(heap, now, lifetimeHours)
    ensures DictInHeap(heap, userThreads) ==> DictInHeap(h, users)
  {
    if h != [] {
      HeadFreshAllFresh(h, now, lifetimeHours);
    }
    SweptKeysAreExpiredKeys(heap, evicted, h, now, lifetimeHours);
    if DictInHeap(heap, userThreads) {
      SweepKeepsCover(heap, userThreads, evicted, h, users);
    }
  }

  /** The records of `userThreads` that are not among the popped nodes. */
  ghost function Surviving<K>(userThreads: map<K, ThreadInfo<K>>, evicted: seq<ThreadInfo<K>>): map<K, ThreadInfo<K>> {
    map u | u in userThreads && userThreads[u] !in evicted :: userThreads[u]
  }

  /**
   * The bookkeeping of the validated sweep: the popped nodes, all expired,
   * and the heap left make up the heap swept; the dictionary has lost
   * exactly the records that were popped.
   */
  ghost predicate ValidatedInv<K>(heap: seq<ThreadInfo<K>>, userThreads: map<K, ThreadInfo<K>>,
                                  h: seq<ThreadInfo<K>>, evicted: seq<ThreadInfo<K>>, users: map<K, ThreadInfo<K>>,
                                  now: int, lifetimeHours: int)
  {
    && IsMinHeap(h)
    && multiset(evicted) + multiset(h) == multiset(heap)
    && (forall i | 0 <= i < |evicted| :: Expired(evicted[i], now, lifetimeHours))
    && users == Surviving(userThreads, evicted)
  }

  lemma ValidatedStart<K>(heap: seq<ThreadInfo<K>>, userThreads: map<K, ThreadInfo<K>>, now: int, lifetimeHours: int)
    requires IsMinHeap(heap)
    ensures ValidatedInv(heap, userThreads, heap, [], userThreads, now, lifetimeHours)
  {
    assert Surviving(userThreads, []) == userThreads;
  }

  /** What one pop of the validated sweep does to the loop's bookkeeping. */
  lemma ValidatedStep<K>(heap: seq<ThreadInfo<K>>, userThreads: map<K, ThreadInfo<K>>,
                         h: seq<ThreadInfo<K>>, evicted: seq<ThreadInfo<K>>, users: map<K, ThreadInfo<K>>,
                         oldest: ThreadInfo<K>, rest: seq<ThreadInfo<K>>, now: int, lifetimeHours: int)
    requires ValidatedInv(heap, userThreads, h, evicted, users, now, lifetimeHours)
    requires KeysMatch(userThreads)
    requires |h| > 0 && oldest == h[0] && Expired(oldest, now, lifetimeHours)
    requires IsMinHeap(rest) && multiset(rest) + multiset{oldest} == multiset(h)
    ensures ValidatedInv(heap, userThreads, rest, evicted + [oldest],
                         if oldest.userId in users && users[oldest.userId] == oldest
                         then users - {oldest.userId} else users, now, lifetimeHours)
  {
    var e := evicted + [oldest];
    assert multiset(e) == multiset(evicted) + multiset{oldest};
    forall i | 0 <= i < |e| ensures Expired(e[i], now, lifetimeHours) {
      if i < |evicted| {
        assert e[i] == evicted[i];
      }
    }
    assert forall x :: x in e <==> x in evicted || x == oldest;
    var users' := if oldest.userId in users && users[oldest.userId] == oldest
                  then users - {oldest.userId} else users;
    var s := Surviving(userThreads, e);
    forall u ensures u in users' <==> u in s {
    }
    forall u | u in s ensures users'[u] == s[u] {
    }
    assert users' == s;
  }

  /** When the validated loop stops, the bookkeeping gives the sweep's promises. */
  lemma ValidatedFinish<K>(heap: seq<ThreadInfo<K>>, userThreads: map<K, ThreadInfo<K>>,
                           h: seq<ThreadInfo<K>>, evicted: seq<ThreadInfo<K>>, users: map<K, ThreadInfo<K>>,
                           now: int, lifetimeHours: int)
    requires ValidatedInv(heap, userThreads, h, evicted, users, now, lifetimeHours)
    requires KeysMatch(userThreads) && DictInHeap(heap, userThreads)
    requires h == [] || !Expired(h[0], now, lifetimeHours)
    ensures IsMinHeap(h) && KeysMatch(users) && DictInHeap(h, users)
    ensures multiset(evicted) + multiset(h) == multiset(heap)
    ensures forall x | x in h :: !Expired(x, now, lifetimeHours)
    ensures users == map u | u in userThreads && !Expired(userThreads[u], now, lifetimeHours) :: userThreads[u]
  {
    if h != [] {
      HeadFreshAllFresh(h, now, lifetimeHours);
    }
    forall u | u in userThreads
      ensures userThreads[u] in evicted <==> Expired(userThreads[u], now, lifetimeHours)
      ensures userThreads[u] !in evicted ==> userThreads[u] in h
    {
      var x := userThreads[u];
      assert x in multiset(heap);
      if x in evicted {
        var i :| 0 <= i < |evicted| && evicted[i] == x;
      } else {
        assert x !in multiset(evicted);
        assert x in multiset(h);
      }
    }
    var m := map u | u in userThreads && !Expired(userThreads[u], now, lifetimeHours) :: userThreads[u];
    forall u ensures u in users <==> u in m {
    }
    assert users == m;
  }

  /** The keys whose record is expired. */
  ghost function ExpiredUsers<K>(userThreads: map<K, ThreadInfo<K>>, now: int, lifetimeHours: int): set<K> {
    set u | u in userThreads && Expired(userThreads[u], now, lifetimeHours)
  }

  /**
   * The records the validated sweep has dropped so far: each is the record of
   * its key in the swept dictionary, no key comes twice, and their keys are
   * exactly those gone from the dictionary.
   */
  ghost predicate DroppedInv<K>(userThreads: map<K, ThreadInfo<K>>, users: map<K, ThreadInfo<K>>, dropped: seq<ThreadInfo<K>>) {
    && (forall i | 0 <= i < |dropped| ::
          dropped[i].userId in userThreads && userThreads[dropped[i].userId] == dropped[i] && dropped[i].userId !in users)
    && (forall i, j | 0 <= i < j < |dropped| :: dropped[i].userId != dropped[j].userId)
    && KeysOf(dropped) == userThreads.Keys - users.Keys
  }

  lemma DroppedStart<K>(userThreads: map<K, ThreadInfo<K>>)
    ensures DroppedInv(userThreads, userThreads, [])
  {
    assert KeysOf<K>([]) == {};
  }

  /** Dropping a popped node that is its key's live record keeps the bookkeeping. */
  lemma DroppedStep<K>(userThreads: map<K, ThreadInfo<K>>, users: map<K, ThreadInfo<K>>,
                       dropped: seq<ThreadInfo<K>>, evicted: seq<ThreadInfo<K>>, oldest: ThreadInfo<K>)
    requires DroppedInv(userThreads, users, dropped) && users == Surviving(userThreads, evicted)
    requires oldest.userId in users && users[oldest.userId] == oldest
    ensures DroppedInv(userThreads, users - {oldest.userId}, dropped + [oldest])
  {
    var d := dropped + [oldest];
    KeysOfAppend(dropped, oldest);
    forall i | 0 <= i < |d|
      ensures d[i].userId in userThreads && userThreads[d[i].userId] == d[i] && d[i].userId !in users - {oldest.userId}
    {
      if i < |dropped| {
        assert d[i] == dropped[i];
      }
    }
  }

  /** When the validated loop stops, the dropped records are exactly the expired ones. */
  lemma DroppedFinish<K>(userThreads: map<K, ThreadInfo<K>>, users: map<K, ThreadInfo<K>>,
                         dropped: seq<ThreadInfo<K>>, now: int, lifetimeHours: int)
    requires DroppedInv(userThreads, users, dropped)
    requires users == map u | u in userThreads && !Expired(userThreads[u], now, lifetimeHours) :: userThreads[u]
    ensures forall i | 0 <= i < |dropped| ::
      dropped[i].userId in userThreads && userThreads[dropped[i].userId] == dropped[i]
      && Expired(dropped[i], now, lifetimeHours)
    ensures KeysOf(dropped) == ExpiredUsers(userThreads, now, lifetimeHours)
  {
    assert userThreads.Keys - users.Keys == ExpiredUsers(userThreads, now, lifetimeHours);
  }

  /** With no expired record, nothing is dropped. */
  lemma NoneDropped<K>(dropped: seq<ThreadInfo<K>>, userThreads: map<K, ThreadInfo<K>>, now: int, lifetimeHours: int)
    requires forall u | u in userThreads :: !Expired(userThreads[u], now, lifetimeHours)
    requires KeysOf(dropped) == ExpiredUsers(userThreads, now, lifetimeHours)
    ensures dropped == []
  {
    KeysOfHead(dropped);
  }

  lemma KeysOfHead<K>(xs: seq<ThreadInfo<K>>)
    ensures xs != [] ==> xs[0].userId in KeysOf(xs)
  {
  }

  /** The keys of the given nodes. */
  ghost function KeysOf<K>(xs: seq<ThreadInfo<K>>): set<K> {
    set x | x in xs :: x.userId
  }

  /** Nodes in non-decreasing order of last access. */
  ghost predicate SortedByAccess<K>(xs: seq<ThreadInfo<K>>) {
    forall i, j | 0 <= i < j < |xs| :: xs[i].lastAccess <= xs[j].lastAccess
  }

  /** No node of `h` is older than `x`. */
  ghost predicate NoneOlderThan<K>(x: ThreadInfo<K>, h: seq<ThreadInfo<K>>) {
    forall y | y in h :: x.lastAccess <= y.lastAccess
  }

  lemma SortedAppend<K>(xs: seq<ThreadInfo<K>>, x: ThreadInfo<K>)
    requires SortedByAccess(xs)
    requires xs != [] ==> xs[|xs| - 1].lastAccess <= x.lastAccess
    ensures SortedByAccess(xs + [x])
  {
  }

  lemma KeysOfAppend<K>(xs: seq<ThreadInfo<K>>, x: ThreadInfo<K>)
    ensures KeysOf(xs + [x]) == KeysOf(xs) + {x.userId}
  {
    assert forall y :: y in xs + [x] <==> y in xs || y == x;
  }

  /** What `heappop` returns is no younger than anything left in the heap. */
  lemma PopYieldsOldest<K>(h: seq<ThreadInfo<K>>, top: ThreadInfo<K>, rest: seq<ThreadInfo<K>>)
    requires IsMinHeap(h) && |h| > 0 && top == h[0]
    requires multiset(rest) + multiset{top} == multiset(h)
    ensures NoneOlderThan(top, rest)
    ensures NoneOlderThan(top, h)
  {
    forall x | x in h ensures top.lastAccess <= x.lastAccess {
      var i :| 0 <= i < |h| && h[i] == x;
      HeadIsOldest(h, i);
    }
    forall x | x in rest ensures top.lastAccess <= x.lastAccess {
      assert x in multiset(h);
      var i :| 0 <= i < |h| && h[i] == x;
      HeadIsOldest(h, i);
    }
  }

  /** If the head of a heap has not expired, nothing in it has. */
  lemma HeadFreshAllFresh<K>(h: seq<ThreadInfo<K>>, now: int, lifetimeHours: int)
    requires IsMinHeap(h) && |h| > 0 && !Expired(h[0], now, lifetimeHours)
    ensures forall x | x in h :: !Expired(x, now, lifetimeHours)
  {
    forall x | x in h ensures !Expired(x, now, lifetimeHours) {
      var i :| 0 <= i < |h| && h[i] == x;
      HeadIsOldest(h, i);
    }
  }

  /** Splitting a heap into expired and unexpired nodes separates exactly the expired keys. */
  lemma SweptKeysAreExpiredKeys<K>(h: seq<ThreadInfo<K>>, evicted: seq<ThreadInfo<K>>, rest: seq<ThreadInfo<K>>,
                                   now: int, lifetimeHours: int)
    requires multiset(evicted) + multiset(rest) == multiset(h)
    requires forall i | 0 <= i < |evicted| :: Expired(evicted[i], now, lifetimeHours)
    requires forall x | x in rest :: !Expired(x, now, lifetimeHours)
    ensures KeysOf(evicted) == ExpiredKeys(h, now, lifetimeHours)
  {
    forall x | x in h && Expired(x, now, lifetimeHours) ensures x.userId in KeysOf(evicted) {
      assert x in multiset(h);
      assert x !in rest;
      assert x in multiset(evicted);
    }
    forall x | x in evicted ensures x in h {
      assert x in multiset(h);
    }
  }

  /** The sweep drops only keys of popped nodes, so every record left is still in the heap. */
  lemma SweepKeepsCover<K>(h: seq<ThreadInfo<K>>, users: map<K, ThreadInfo<K>>,
                           evicted: seq<ThreadInfo<K>>, rest: seq<ThreadInfo<K>>, users': map<K, ThreadInfo<K>>)
    requires DictInHeap(h, users) && KeysMatch(users)
    requires multiset(evicted) + multiset(rest) == multiset(h)
    requires users' == users - KeysOf(evicted)
    ensures DictInHeap(rest, users')
  {
    forall u | u in users' ensures users'[u] in rest {
      var x := users'[u];
      assert x in multiset(h);
      assert x !in multiset(evicted);
      assert x in multiset(rest);
    }
  }
}

=== FILE: wrappers.dfy ===
/** The optional value used wherever the bot reads a field that may be absent (None in the bot). */
module Wrappers {

  datatype Option<+T> = None | Some(value: T) {

    /** The value if present, otherwise `default`. */
    function GetOr(default: T): T {
      match this
      case Some(v) => v
      case None => default
    }
  }

  /** A value or the error that stopped its computation. */
  datatype Result<+T, +E> = Success(value: T) | Failure(error: E)
}
